=== FILE: README.md ===
# Deterministic rules of the AI workshops and the observability demo

This project models, in Dafny, the small deterministic rules inside three teaching
projects. Each project is mostly glue around third-party services.

- **The RAG lab service** (`rag_core.py`, `agent_graph.py`):
  - fixed-window chunking of knowledge-base files (2000-character windows every 1600
    characters) and the parallel `ids`/`docs`/`metas` lists handed to the vector store;
  - snippet truncation and the numbered source listing put in the prompt;
  - the empty-context and unparseable-reply branches of `generate`;
  - policy-id extraction with `\b([A-Z]{3}-\d{3}(?:-[A-Z]+)?)\b` followed by `sorted(set(...))`;
  - the ticket-id format, the route decision after each model turn, and the thread id and
    initial conversation of an agent run.
- **The ML model lifecycle pipelines** (workshop `pipeline_ml.py` and `data.py`; academy
  `pipeline.py`, `train.py`, `monitor.py`, `pipeline_monitoring.py`, `retrain.py`):
  - reading the best run's hyperparameters back from MLflow's string form;
  - choosing the `.pkl` artifact;
  - enumerating the 3×3 grid in `itertools.product` order;
  - the `log_model` flags;
  - the minimum drift p-value, and the two retrain thresholds with opposite senses;
  - column-name sanitising and the drifted-batch size.
- **The observability demo** ("Through the Looking Glass", `python-app`):
  - parsing the tracer's `host:port` endpoint and the constant sampler;
  - rendering trace ids as 32-digit and as unpadded lowercase hex;
  - the Jaeger `uber-trace-id` header as injected by the frontend and extracted by the
    backend, with the fallback to a new root span;
  - the rule that each request's metric and log line carry the same trace-id string.

Everything is modelled with immutable datatypes and pure functions. The one exception is
`Monitor.ComputeDrift`, a method whose loops mirror the Python ones. External services become
inputs:
- retrieval hits and the chat model's output;
- MLflow search rows and artifact lists;
- the span ids a tracer generates;
- the salted string hash;
- the outcome of a file write or an HTTP call.

Python floats are modelled as `real`, and the model only compares them. Python's `int()` is
modelled with ASCII digits, surrounding whitespace (every character Python counts as
whitespace), a sign and single underscores between digits.

Shared modules:
- `Wrappers`: `Option`/`Result` and the Python exception kinds.
- `Numerals`: digit strings in base 10 and 16, `int()`, `str()` and `format(_, "x")`.
- `Strings`: `split`, `join`, suffixes, lower-casing and replacement.
- `Jaeger`: span contexts and the header codec.
- `Telemetry`: metric, log and HTTP effects, and what it means for them to be correlated.

Two behaviours of the code worth knowing:
- When the backend is unreachable, `requests.get` raises before the log call
  (Stage-2-Direct/frontend.py:44-48), so the Stage-2 frontend writes no log line.
- The workshop `data_preparation` replaces `/` with `_` (data.py:91-92), although its log line
  says `-`.

## Model

| member | source | states |
|---|---|---|
| RagCore.Chunks | Workshops/AI/04-Agents-and-RAG/src/lab_service/rag_core.py:93 | the number of chunks is ceil(len(text) / 1600), so an empty file has none |
| RagCore.ChunkCountBounds | Workshops/AI/04-Agents-and-RAG/src/lab_service/rag_core.py:93 | chunk k exists exactly when its start 1600·k lies inside the text |
| RagCore.ChunkShape | Workshops/AI/04-Agents-and-RAG/src/lab_service/rag_core.py:93 | chunk k is the text from offset 1600·k, of length min(2000, len − 1600·k): non-empty and at most 2000 characters |
| RagCore.ChunkCoverage | Workshops/AI/04-Agents-and-RAG/src/lab_service/rag_core.py:93 | no chunks iff the text is empty; every start below the length begins a chunk |
| RagCore.ChunkOverlap | Workshops/AI/04-Agents-and-RAG/src/lab_service/rag_core.py:93 | what chunk k holds past offset 1600 is the beginning of chunk k+1: consecutive windows overlap by 400 characters |
| RagCore.StitchChunks | Workshops/AI/04-Agents-and-RAG/src/lab_service/rag_core.py:93 | the first 1600 characters of each chunk followed by the whole last chunk give back the file: chunking loses nothing |
| RagCore.IngestFrom | Workshops/AI/04-Agents-and-RAG/src/lab_service/rag_core.py:88-98 | only `.md`/`.txt` files (suffix lower-cased) contribute; docs, ids and metas grow in lockstep to the total chunk count; the file counter advances once per indexable file; a directory with such a suffix raises IsADirectoryError |
| RagCore.Ingest | Workshops/AI/04-Agents-and-RAG/src/lab_service/rag_core.py:86-104 | `indexed_files` counts the indexable files, `chunks` their chunks, and `col.add` is called, with equally long lists, exactly when there is at least one chunk |
| RagCore.IngestAddsChunks | Workshops/AI/04-Agents-and-RAG/src/lab_service/rag_core.py:94-102 | in what `col.add` receives, document j is chunk `metas[j]["chunk"]` of the indexable file `metas[j]["source"]`, and id j carries that same chunk number |
| RagCore.IngestDocsMatchMetas | Workshops/AI/04-Agents-and-RAG/src/lab_service/rag_core.py:94-97 | every stored document is the chunk its meta names: chunk `chunk` of the indexable file `source` |
| RagCore.ParseChunkIdOfChunkId | Workshops/AI/04-Agents-and-RAG/src/lab_service/rag_core.py:95 | the file number and chunk number can be read back from every id `stem-file-chunk`, whatever dashes the stem holds |
| RagCore.IngestIdChunks | Workshops/AI/04-Agents-and-RAG/src/lab_service/rag_core.py:95-97 | the chunk number in each id is the `chunk` of the meta appended with it |
| RagCore.IngestIdKeys | Workshops/AI/04-Agents-and-RAG/src/lab_service/rag_core.py:94-98 | the (file, chunk) numbers carried by the ids strictly increase along the batch |
| RagCore.IngestIdsDistinct | Workshops/AI/04-Agents-and-RAG/src/lab_service/rag_core.py:95 | no two documents of one ingestion share an id, even when two files have the same stem |
| RagCore.Snippet | Workshops/AI/04-Agents-and-RAG/src/lab_service/rag_core.py:132 | a text of at most 400 characters is its own snippet; a longer one becomes its first 400 characters followed by "..." |
| RagCore.Retrieve | Workshops/AI/04-Agents-and-RAG/src/lab_service/rag_core.py:126-134 | one hit per aligned (document, meta, distance) triple, up to the shortest list, keeping the full text, and with exactly `Snippet` of that text as the snippet |
| RagCore.RetrieveUnzip | Workshops/AI/04-Agents-and-RAG/src/lab_service/rag_core.py:127-134 | the texts, metas and scores of the hits are exactly the leading parts of the three lists, as long as the shortest of them |
| RagCore.FormatSourcesPlacement | Workshops/AI/04-Agents-and-RAG/src/lab_service/rag_core.py:154-160 | the i-th hit appears as block `[i+1] source (chunk c)` with its full text, in retrieval order, right after a newline |
| RagCore.FormatSourcesLength | Workshops/AI/04-Agents-and-RAG/src/lab_service/rag_core.py:154-160 | no hits give an empty listing; otherwise the listing is the blocks and one newline between each pair, nothing else |
| RagCore.FallbackCitations | Workshops/AI/04-Agents-and-RAG/src/lab_service/rag_core.py:237 | one citation per hit, in retrieval order, each with exactly the keys `source` and `chunk`, holding the hit's source string and chunk number |
| RagCore.Validate | Workshops/AI/04-Agents-and-RAG/src/lab_service/models.py:81-82 | building `RAGResponse` succeeds exactly when the answer is a JSON string and the citations a JSON list of objects, keeping both unchanged; anything else raises ValidationError |
| RagCore.Generate | Workshops/AI/04-Agents-and-RAG/src/lab_service/rag_core.py:193-239 | no hits: the fixed "No documents found" answer, no citations and no model call. Otherwise one request goes out: the system prompt, temperature 0.2, 512 tokens, and a user message that is the question, the numbered sources, a blank line and the reply-shape instruction. A reply that is not a JSON object comes back as the answer, with one citation per hit. A JSON object is read with `answer` defaulting to "" and `citations` to []. It is accepted exactly when those values are a string and a list of objects, and then returned unchanged; otherwise ValidationError |
| RagCore.GenerateKeepsRequestedShape | Workshops/AI/04-Agents-and-RAG/src/lab_service/rag_core.py:228-239 | a reply of exactly the requested shape `{answer, citations}` is returned as the response, answer and citations unchanged |
| RagCore.GenerateFallbackCitesPrompt | Workshops/AI/04-Agents-and-RAG/src/lab_service/rag_core.py:203-237 | on the fallback path, citation i names exactly the source and chunk that the user message lists under `[i+1]`, at that block's offset |
| RagCore.PromptHeader | Workshops/AI/04-Agents-and-RAG/src/lab_service/rag_core.py:203-207 | in a message made of a head, the source listing and a tail, the header `[i+1] source (chunk c)` of hit i starts at the head's length plus the block's offset in the listing |
| PolicyIds.MatchAtSound | Workshops/AI/04-Agents-and-RAG/src/lab_service/agent_graph.py:35 | whatever the pattern matches at a position is `AAA-999` or `AAA-999-SUFFIX` between word boundaries |
| PolicyIds.MatchAtLongest | Workshops/AI/04-Agents-and-RAG/src/lab_service/agent_graph.py:35 | if a delimited policy id starts at a position, the pattern matches there, and matches the longest one |
| PolicyIds.MatchAt | Workshops/AI/04-Agents-and-RAG/src/lab_service/agent_graph.py:35 | a match at a position is at least seven characters long and ends inside the text |
| PolicyIds.MatchesOrdered | Workshops/AI/04-Agents-and-RAG/src/lab_service/agent_graph.py:35 | the matches of `finditer` from a position form an ordered sequence of delimited policy ids, each starting at or after the end of the previous one |
| PolicyIds.MatchesExact | Workshops/AI/04-Agents-and-RAG/src/lab_service/agent_graph.py:35 | each match reported is the pattern's own match at its start position, taken whole |
| PolicyIds.MatchesComplete | Workshops/AI/04-Agents-and-RAG/src/lab_service/agent_graph.py:35 | no match is skipped: every position where the pattern matches starts a reported match or lies inside one |
| PolicyIds.MatchFoundAt | Workshops/AI/04-Agents-and-RAG/src/lab_service/agent_graph.py:35 | where the pattern matches outside every earlier match, exactly that match is reported |
| PolicyIds.OrderedMatchesSpans | Workshops/AI/04-Agents-and-RAG/src/lab_service/agent_graph.py:35 | ordered matches lie inside the text, are each a policy id between word boundaries, and do not overlap |
| PolicyIds.FindAll | Workshops/AI/04-Agents-and-RAG/src/lab_service/agent_graph.py:35 | every string `findall` reports has the policy-id shape |
| PolicyIds.FindAllOccurs | Workshops/AI/04-Agents-and-RAG/src/lab_service/agent_graph.py:35 | every reported id is the text of its match span, and the spans come in order |
| PolicyIds.FindAllOfId | Workshops/AI/04-Agents-and-RAG/src/lab_service/agent_graph.py:35 | a well-formed policy id on its own is found exactly once and whole |
| PolicyIds.FindAllComplete | Workshops/AI/04-Agents-and-RAG/src/lab_service/agent_graph.py:35 | a delimited policy id that does not lie inside an earlier match is found, extended to the longest delimited id at its position |
| PolicyIds.SortedSet | Workshops/AI/04-Agents-and-RAG/src/lab_service/agent_graph.py:55 | `sorted(set(xs))` is strictly increasing in Python string order and has exactly the members of xs |
| PolicyIds.SortedUnique | Workshops/AI/04-Agents-and-RAG/src/lab_service/agent_graph.py:55 | two strictly increasing lists with the same members are equal, so `sorted(set(...))` is determined by the ids found |
| PolicyIds.PolicyIdsIn | Workshops/AI/04-Agents-and-RAG/src/lab_service/agent_graph.py:55 | a hit's ids are strictly increasing (no duplicates), exactly the ids found in its text, each of the policy-id shape |
| PolicyIds.PolicyIdsComplete | Workshops/AI/04-Agents-and-RAG/src/lab_service/agent_graph.py:35-55 | every delimited policy id in a hit's text that is not inside an earlier match is listed among its ids, as the longest delimited id at its position |
| AgentGraph.SearchPolicies | Workshops/AI/04-Agents-and-RAG/src/lab_service/agent_graph.py:51-62 | one entry per retrieved hit, in order, with source and chunk copied from the meta, the full text as excerpt, and sorted, de-duplicated ids |
| AgentGraph.SearchPoliciesIdsWellFormed | Workshops/AI/04-Agents-and-RAG/src/lab_service/agent_graph.py:35-55 | every id listed for a hit has the policy-id shape |
| AgentGraph.SearchPoliciesIdsCanonical | Workshops/AI/04-Agents-and-RAG/src/lab_service/agent_graph.py:55 | any strictly increasing list with the members `findall` reports is exactly the listed ids |
| AgentGraph.TicketIdShape | Workshops/AI/04-Agents-and-RAG/src/lab_service/agent_graph.py:95 | a ticket id is `TKT-` and the canonical decimal form of abs(hash) mod 10000, a number in [0, 9999], so 5 to 8 characters |
| AgentGraph.CreateTicket | Workshops/AI/04-Agents-and-RAG/src/lab_service/agent_graph.py:95-118 | the reply is always status "created" with the ticket's id; only the local record turns "created_with_persist_error" and keeps the error when the write fails |
| AgentGraph.CreateTicketReplyIgnoresPersistence | Workshops/AI/04-Agents-and-RAG/src/lab_service/agent_graph.py:113-118 | the reply is the same whether or not persistence failed, and whatever the timestamp |
| AgentGraph.Route | Workshops/AI/04-Agents-and-RAG/src/lab_service/agent_graph.py:160-169 | "tools" exactly when the last message is a model message with a non-empty tool-call list, END otherwise; an empty history raises IndexError |
| AgentGraph.RouteLastOnly | Workshops/AI/04-Agents-and-RAG/src/lab_service/agent_graph.py:166-169 | the route depends on the last message alone |
| AgentGraph.ThreadId | Workshops/AI/04-Agents-and-RAG/src/lab_service/agent_graph.py:235 | a missing or empty thread id becomes "default"; any other is kept; the result is never empty |
| AgentGraph.RunAgent | Workshops/AI/04-Agents-and-RAG/src/lab_service/agent_graph.py:235-244 | the graph is invoked with exactly [system prompt, question]; the returned thread id is the one used; the answer is the content of the last message |
| AgentGraph.RunAgentDefaultThread | Workshops/AI/04-Agents-and-RAG/src/lab_service/agent_graph.py:235 | omitting the thread id and passing an empty one give the same run, on thread "default" |
| MlflowRuns.ParseNEstimators | Workshops/AI/02-ML-Model-Lifecycle/src/pipeline_ml.py:88 | `n_estimators` is always read with `int()`, whose failure is ValueError; a best run without the parameter has no such column in the one-row frame, so the lookup raises KeyError |
| MlflowRuns.ParseMaxDepth | Workshops/AI/02-ML-Model-Lifecycle/src/pipeline_ml.py:89 | "" and "None" mean no depth limit, exactly; any other value is read with `int()`, whose failure is ValueError; a missing parameter is KeyError |
| MlflowRuns.BestParams | Workshops/AI/02-ML-Model-Lifecycle/src/pipeline_ml.py:85-90 | the first (best) run's parameters, succeeding exactly when both cells parse; an empty search raises IndexError (the same parsing as Academy pipeline.py lines 32-38) |
| MlflowRuns.BestParamsOfLogged | Workshops/AI/02-ML-Model-Lifecycle/src/pipeline_ml.py:88-89 | round trip: parameters logged with `str()` by a training run are read back unchanged |
| MlflowRuns.FirstPickle | Workshops/AI/02-ML-Model-Lifecycle/src/pipeline_ml.py:116 | the index of the first listed path ending in `.pkl`; none when no path does |
| MlflowRuns.SelectPickle | Workshops/AI/02-ML-Model-Lifecycle/src/pipeline_ml.py:116 | the chosen artifact is the first path ending in `.pkl`; StopIteration exactly when there is none |
| MlflowRuns.DownloadBestModel | Workshops/AI/02-ML-Model-Lifecycle/src/pipeline_ml.py:109-116 | the best run's id and the first `.pkl` path among its artifacts, as `next(...)` picks it; IndexError for an empty search, StopIteration when the best run has no `.pkl` (the same code as Academy pipeline.py lines 48-55) |
| MlflowRuns.ProductIndex | Workshops/AI/02-ML-Model-Lifecycle/src/pipeline_ml.py:156 | pair number i·len(ys) + j of `product(xs, ys)` is (xs[i], ys[j]): the first list is the outer loop |
| MlflowRuns.ProductMembers | Workshops/AI/02-ML-Model-Lifecycle/src/pipeline_ml.py:156 | the product holds exactly the pairs of an element of each list |
| MlflowRuns.ProductDistinct | Workshops/AI/02-ML-Model-Lifecycle/src/pipeline_ml.py:156 | without repeats in either list, no pair occurs twice |
| WorkshopPipeline.TrainExperiment | Workshops/AI/02-ML-Model-Lifecycle/src/pipeline_ml.py:151-159 | one training task per grid pair, in product order, on the prepared dataset and without logging the model (the default at line 55) |
| WorkshopPipeline.TrainExperimentOrder | Workshops/AI/02-ML-Model-Lifecycle/src/pipeline_ml.py:151-159 | exactly nine tasks; task 3i+j trains (n_estimators[i], max_depth[j]) and none logs the model |
| WorkshopPipeline.TrainExperimentCovers | Workshops/AI/02-ML-Model-Lifecycle/src/pipeline_ml.py:151-156 | a pair is trained iff it is in {1, 5, 10} × {None, 5, 10} |
| WorkshopPipeline.TrainExperimentDistinct | Workshops/AI/02-ML-Model-Lifecycle/src/pipeline_ml.py:151-156 | no pair is trained twice |
| WorkshopPipeline.TrainBest | Workshops/AI/02-ML-Model-Lifecycle/src/pipeline_ml.py:171-176 | retrains on the prepared dataset with exactly the best parameters and `log_model=True`; fails exactly when reading them fails |
| WorkshopPipeline.TrainBestOfSweep | Workshops/AI/02-ML-Model-Lifecycle/src/pipeline_ml.py:171-176 | whichever sweep task scored best, `train_best` repeats its training call on the same prepared dataset, now with `log_model=True` |
| AcademyPipeline.BindRun | Academy/AI/2-ML-Model-Lifecycle/src/train.py:60-69 | how keyword arguments bind to `run`: a missing `dataset_split` raises TypeError; otherwise the defaults are 200 trees, no depth limit and a truthy `log_model` |
| AcademyPipeline.TrainTaskAsWrittenFails | Academy/AI/2-ML-Model-Lifecycle/src/pipeline.py:25-26 | every sweep task as written raises TypeError (see Findings) |
| AcademyPipeline.AcademyFlowsAsWrittenFail | Academy/AI/2-ML-Model-Lifecycle/src/pipeline.py:80-88 | counterexample: the first sweep pair, and `train_best` over the run it would have logged, both raise TypeError |
| AcademyPipeline.TrainBestAsWrittenNeverTrains | Academy/AI/2-ML-Model-Lifecycle/src/pipeline.py:84-88 | whatever MLflow returns, `train_best` as written never trains |
| AcademyPipeline.TrainTask | Academy/AI/2-ML-Model-Lifecycle/src/pipeline.py:26 | with the split passed, a sweep task always trains the given pair with `log_model=False` |
| AcademyPipeline.TrainSweep | Academy/AI/2-ML-Model-Lifecycle/src/pipeline.py:76-81 | with the split passed, the sweep submits one task per pair of the grid, in product order (as written, every one of them raises TypeError) |
| AcademyPipeline.TrainSweepOrder | Academy/AI/2-ML-Model-Lifecycle/src/pipeline.py:76-81 | with the split passed: nine tasks, and task 3i+j trains (n_estimators[i], max_depth[j]) without logging the model |
| AcademyPipeline.TrainSweepCovers | Academy/AI/2-ML-Model-Lifecycle/src/pipeline.py:76-81 | with the split passed, a pair is trained iff it is in {50, 100, 200} × {None, 5, 10}, and none twice |
| AcademyPipeline.TrainBest | Academy/AI/2-ML-Model-Lifecycle/src/pipeline.py:86-88 | with the split passed, `train_best` forwards exactly the parsed parameters with `log_model=True`, and fails with the parsing error otherwise |
| AcademyPipeline.TrainBestOfLogged | Academy/AI/2-ML-Model-Lifecycle/src/pipeline.py:32-38 | the corrected `train_best` retrains with the hyperparameters the best run logged |
| Monitor.Scores | Academy/AI/2-ML-Model-Lifecycle/src/monitor.py:43-44 | exactly one score per column of `drift_by_columns`, in table order |
| Monitor.ComputeDrift | Academy/AI/2-ML-Model-Lifecycle/src/monitor.py:39-49 | the minimum is one of the collected scores and at most every one of them; a short "metrics" list raises IndexError, a missing key KeyError, no columns ValueError |
| PipelineMonitoring.TriggerIfDrift | Academy/AI/2-ML-Model-Lifecycle/src/pipeline_monitoring.py:70-85 | `train_best` is launched iff min_p ≤ threshold, and "no drift" is logged iff it is not |
| PipelineMonitoring.TriggerAtThreshold | Academy/AI/2-ML-Model-Lifecycle/src/pipeline_monitoring.py:81 | a p-value equal to the threshold triggers retraining |
| PipelineMonitoring.TriggerMonotone | Academy/AI/2-ML-Model-Lifecycle/src/pipeline_monitoring.py:81 | a retrain at threshold t is also a retrain at every t' ≥ t |
| PipelineMonitoring.TriggerOneBranch | Academy/AI/2-ML-Model-Lifecycle/src/pipeline_monitoring.py:81-85 | each call launches `train_best` exactly once or logs "no drift", never both |
| Retrain.ReadDrift | Academy/AI/2-ML-Model-Lifecycle/src/retrain.py:14-17 | no report gives drift 0.0; a report without `#drift_score` raises AttributeError |
| Retrain.Run | Academy/AI/2-ML-Model-Lifecycle/src/retrain.py:12-22 | retraining runs iff drift > threshold, strictly |
| Retrain.RunAtThreshold | Academy/AI/2-ML-Model-Lifecycle/src/retrain.py:18-22 | a score equal to the threshold takes the "ok" branch |
| Retrain.RunWithoutReport | Academy/AI/2-ML-Model-Lifecycle/src/retrain.py:14-18 | with no report and a non-negative threshold nothing is retrained |
| Retrain.OppositeSensesAtThreshold | Academy/AI/2-ML-Model-Lifecycle/src/retrain.py:18 | at equality the two rules disagree: the monitoring flow retrains, this command does not |
| Retrain.OppositeSensesAtDefaults | Academy/AI/2-ML-Model-Lifecycle/src/pipeline_monitoring.py:70 | at the default thresholds, a p-value of exactly 0.05 launches retraining and a drift score of exactly 0.6 does not |
| WorkshopData.SanitizeColumns | Workshops/AI/02-ML-Model-Lifecycle/src/data.py:92 | same number and order of columns, same name lengths, `/` becomes `_`, every other character unchanged, no `/` left |
| WorkshopData.SanitizeIdempotent | Workshops/AI/02-ML-Model-Lifecycle/src/data.py:92 | sanitising twice is sanitising once |
| WorkshopData.HighAlcoholFrom | Workshops/AI/02-ML-Model-Lifecycle/src/data.py:57 | the filter keeps exactly the rows with alcohol > 13, in row order |
| WorkshopData.DriftBatch | Workshops/AI/02-ML-Model-Lifecycle/src/data.py:64 | the batch has exactly min(100, number of rows with alcohol > 13) distinct rows, all of them filtered rows |
| WorkshopData.DriftBatchSmall | Workshops/AI/02-ML-Model-Lifecycle/src/data.py:64 | when at most 100 rows pass the filter, every one of them is in the batch |
| Traces.ParseEndpoint | Through-The-Looking-Glass/python-app/Stage-2-Direct/traces.py:7-16 | accepted iff the endpoint splits on `:` into exactly two pieces and the second parses with `int()`; the host is the first piece unchanged; every failure is ValueError |
| Traces.ParseEndpointColons | Through-The-Looking-Glass/python-app/Stage-2-Direct/traces.py:7 | an endpoint with no colon or more than one is rejected |
| Traces.ParseEndpointOfJoin | Through-The-Looking-Glass/python-app/Stage-2-Direct/traces.py:7-16 | round trip: `host + ":" + str(port)` parses back to (host, port) for any colon-free host |
| Traces.JoinOfParseEndpoint | Through-The-Looking-Glass/python-app/Stage-2-Direct/traces.py:7-16 | round trip the other way: an accepted endpoint with a canonically written port is rebuilt exactly from its parts |
| Traces.InitTracer | Through-The-Looking-Glass/python-app/Stage-2-Direct/traces.py:5-21 | configured iff the endpoint parses; reporting host and port are the parsed ones; the sampler is `const` with parameter 1, which samples every trace, and logging is off |
| Jaeger.RootSpan | Through-The-Looking-Glass/python-app/Stage-2-Direct/backend.py:32 | a span started without a parent opens a new trace with no parent span, and is sampled |
| Jaeger.ChildSpan | Through-The-Looking-Glass/python-app/Stage-2-Direct/backend.py:29 | a child span stays in its parent's trace, with the parent's span as parent |
| Jaeger.DecodeEncode | Through-The-Looking-Glass/python-app/Stage-2-Direct/frontend.py:35 | round trip: a context written into `uber-trace-id` reads back unchanged |
| Jaeger.EncodeDecode | Through-The-Looking-Glass/python-app/Stage-2-Direct/frontend.py:35 | round trip the other way: a header value of four canonical hex fields is rewritten exactly |
| Jaeger.Inject | Through-The-Looking-Glass/python-app/Stage-2-Direct/frontend.py:32-35 | injecting into an empty header dict writes the one `uber-trace-id` header, which decodes to the span's context |
| Jaeger.FindTraceHeader | Through-The-Looking-Glass/python-app/Stage-2-Direct/backend.py:27 | the first header whose name is `uber-trace-id` in any letter case |
| Jaeger.Extract | Through-The-Looking-Glass/python-app/Stage-2-Direct/backend.py:27 | no parent exactly when no trace header is present; a context found is the decoding of a trace header |
| Jaeger.ExtractFirstHeader | Through-The-Looking-Glass/python-app/Stage-2-Direct/backend.py:27 | the first trace header decides: a context found is its decoding, and the context is corrupted exactly when it does not decode |
| Jaeger.ExtractUpToCase | Through-The-Looking-Glass/python-app/Stage-2-Direct/backend.py:27 | extraction does not depend on the letter case of header names |
| Jaeger.ExtractInject | Through-The-Looking-Glass/python-app/Stage-2-Direct/backend.py:27 | when the injected value arrives as the first trace header, under a name in any letter case and among any other headers, the receiver extracts exactly the injected context |
| Telemetry.MetricIdsMembers | Through-The-Looking-Glass/python-app/Stage-2-Direct/backend.py:45 | a tag is collected iff some recorded metric carries it |
| Telemetry.CorrelatedSequence | Through-The-Looking-Glass/python-app/Stage-2-Direct/backend.py:45-49 | a metric, then untagged calls, then a log line under the same tag make exactly one metric and one log, both under that tag |
| OtelBackend.ProcessRequest | Through-The-Looking-Glass/python-app/backend.py:26-45 | one metric with the measured duration, then one log line, both under the identical 32-digit trace tag, and always "Processed data in Backend!" |
| OtelBackend.TraceTagShape | Through-The-Looking-Glass/python-app/backend.py:40 | a trace id below 2^128 is rendered as exactly 32 lowercase hex digits that read back as the id |
| OtelBackend.TraceTagInjective | Through-The-Looking-Glass/python-app/backend.py:40-44 | different trace ids never get the same tag |
| DirectBackend.StartSpan | Through-The-Looking-Glass/python-app/Stage-2-Direct/backend.py:25-32 | a decoded parent gives a child span; a missing or corrupted context gives a new root span instead of an error |
| DirectBackend.Process | Through-The-Looking-Glass/python-app/Stage-2-Direct/backend.py:23-52 | exactly one metric with the duration and one log line, both under the span's hex trace id, and always "Processed data in Backend!" |
| DirectBackend.ProcessFallsBack | Through-The-Looking-Glass/python-app/Stage-2-Direct/backend.py:30-32 | without usable trace context the request is still served, under the new trace's id |
| DirectBackend.TraceTagRoundTrip | Through-The-Looking-Glass/python-app/Stage-2-Direct/backend.py:37 | the tag is lowercase hex without leading zeros and parses back to the span's trace id |
| DirectFrontend.OutboundHeaders | Through-The-Looking-Glass/python-app/Stage-2-Direct/frontend.py:32-35 | the outbound headers hold only the injected trace header, carrying the span's context |
| DirectFrontend.Index | Through-The-Looking-Glass/python-app/Stage-2-Direct/frontend.py:26-51 | a new root span; the metric is recorded before the backend call; on an answer, one metric and one log share the tag and the reply is the prefix plus the backend's text; on a connection failure the error propagates and no log is written |
| DirectFrontend.IndexReply | Through-The-Looking-Glass/python-app/Stage-2-Direct/frontend.py:51 | the reply starts with "Frontend received: " and ends with exactly the backend's text |
| RequestTrace.TraceCarriedAcross | Through-The-Looking-Glass/python-app/Stage-2-Direct/frontend.py:35-48 | when the frontend's trace header reaches the backend, among whatever other headers the request carries, the backend's span joins the frontend's trace as its child, and both services tag their metric and log with the same trace-id string |

## Left out

- Vector store, embeddings and chat model: Chroma, Hugging Face and LangGraph execution and checkpointing are inputs. The hits and the model's message content are parameters, and so is the outcome of parsing it as JSON.
- JSON text: `json.loads`/`json.dumps` are not modelled character by character. Parsed values and output records are datatypes.
- Directory walk: `rglob` order and `read_text` decoding are inputs. The walk is a list of entries, and a file's text is given.
- `calc`: it evaluates with Python `eval`, which is out of reach.
- The system-prompt text is kept as a constant, but LLM behaviour under it is not modelled.
- `hash()`: Python's string hash is salted per process, so it is an arbitrary function parameter. Only the `abs(h) % 10000` formatting is modelled.
- Ticket persistence: the directory creation and the atomic tmp-then-rename write are a parameter, the error message of a failed write. So is the UTC timestamp.
- The regular-expression engine: `\b`, `\d` and `[A-Z]` are modelled over ASCII only. Python's Unicode word characters and digits beyond ASCII are not.
- String order: Python string order is compared by code point, which is how `char` compares here.
- Lower-casing of suffixes and header names covers ASCII letters only.
- MLflow, Prefect, sklearn and Evidently:
  - search, logging and artifact download;
  - scheduling and `.submit` parallelism;
  - training, accuracy and `train_test_split`;
  - the drift statistics.
  The search rows and artifact lists are inputs, and a training run is represented by the call it makes.
- Floating point: scores, thresholds and durations are exact reals, and only compared. NaN scores are not modelled.
- The HTML report of `retrain.run` is not parsed: its outcome is an input (absent, no `#drift_score` element, or a score). A text that `float()` rejects is not modelled.
- The `subprocess` launch of training is the `Retrained` outcome. The messages echoed by `retrain.run` are not modelled.
- The random drift multiplier and the rescaled alcohol values of `new_data_collection` are left out. So is pandas' seeded sampling order, which is an input permutation.
- Servers and telemetry plumbing:
  - Flask and FastAPI serving, and the subprocess launches;
  - the OpenTelemetry, Prometheus and Loki client setup;
  - the Stage-3 modules, `metrics-direct.py`, `metrics-otel.py`, `logs-otel.py`, `alice.py` and `cheshire.py`.
  A metric, a log line and an outbound request are effects in a list.
- Time: random sleeps and wall-clock durations are parameters. Thread-per-request concurrency is not modelled.
- Jaeger client internals, which the handlers reach through `tracer.extract`/`tracer.inject`, are modelled in simplified form:
  - the header carries the four hex fields `trace:span:parent:flags` without URL encoding;
  - baggage headers and the debug-id header are ignored;
  - a trace id of zero is not rejected, and neither is a span id of zero, which the client rejects;
  - hex fields must use lower-case digits, while the client's `int(x, 16)` also accepts upper-case ones;
  - when several headers match, the first one is used.
- Jaeger.Extract: states the library's behaviour only through this simplified codec, not the full propagation format of the Jaeger client.
- The span ids a tracer generates are an input, `FreshIds`.
- Configuration modules, `variables-direct.py` and `noxfile.py` are constants or framework declarations. Of the Pydantic models, only the validation of `RAGResponse` is modelled.
- RagCore.Generate: JSON numbers are kept only as integers, so a reply holding a fractional number is not modelled. Validation follows Pydantic 2's default lax mode: a `str` field accepts only a JSON string, and `List[Dict[str, Any]]` accepts only a list of objects. Duplicate keys in the reply are resolved by `json.loads` before the parsed value, an input here, is formed.
- Academy `serve_model` and the workshop `serve_model_task` only launch a server.
- Python's `int()` on non-ASCII decimal digits (Arabic-Indic, full-width and the like) is not modelled: those give ValueError in the model. ASCII digits, Python's whitespace, a sign and single underscores between digits are modelled.

## Findings

| source | as written | input that shows it | evidently intended | confidence | as-written member | corrected member |
|---|---|---|---|---|---|---|
| Academy/AI/2-ML-Model-Lifecycle/src/pipeline.py:26 | `train_task` and `train_best` call `train.run` without the required first parameter `dataset_split` (train.py:60-61), so every call raises TypeError before training | the first sweep pair `n_estimators=50, max_depth=None`; `train_best` over a best run that logged `50` and `None` | pass the prepared train/test split, as the workshop flows do (pipeline_ml.py:69 and 174-176) | high, not executed | AcademyPipeline.AcademyFlowsAsWrittenFail | AcademyPipeline.TrainBest |

=== FILE: academy_pipeline.dfy ===
/** The training flows of the academy pipeline (`train_sweep` and `train_best`; the model
    download of `serve_best` is `MlflowRuns.DownloadBestModel`) and how their calls bind to the signature of `train.run`,
    which takes the prepared split as a required first parameter. The flows as written
    never pass that split; both the calls as written and the calls with the split passed
    are modelled. */
module AcademyPipeline {
  import opened Wrappers
  import opened MlflowRuns

  const EstimatorGrid: seq<int> := [50, 100, 200]
  const DepthGrid: seq<Option<int>> := [None, Some(5), Some(10)]

  /** The keyword arguments a caller passes to `train.run`; `None` where it passes nothing. */
  datatype RunArgs = RunArgs(
    datasetSplit: Option<Dataset>, nEstimators: Option<int>,
    maxDepth: Option<Option<int>>, logModel: Option<bool>)

  /** Binding to `run(dataset_split, n_estimators=200, max_depth=None, log_model=typer.Option(True, ...))`:
      a missing `dataset_split` raises TypeError; the `log_model` default is a truthy
      `typer` option object, so it acts as True. */
  function BindRun(args: RunArgs): (r: Result<TrainCall>)
    ensures r.Err? <==> args.datasetSplit.None?
    ensures r.Err? ==> r.error == TypeError
    ensures r.Ok? ==>
      && r.value.dataset == args.datasetSplit.value
      && r.value.params.nEstimators == args.nEstimators.GetOr(200)
      && r.value.params.maxDepth == args.maxDepth.GetOr(None)
      && r.value.logModel == args.logModel.GetOr(true)
  {
    match args.datasetSplit
    case None => Err(TypeError)
    case Some(ds) =>
      Ok(TrainCall(ds, Params(args.nEstimators.GetOr(200), args.maxDepth.GetOr(None)), args.logModel.GetOr(true)))
  }

  // ---------------------------------------------------------------------------
  //  As written: the split is never passed
  // ---------------------------------------------------------------------------

  /** `train_task` as written: `train_run(n_estimators=..., max_depth=..., log_model=False)`. */
  function TrainTaskAsWritten(n: int, d: Option<int>): Result<TrainCall> {
    BindRun(RunArgs(None, Some(n), Some(d), Some(false)))
  }

  /** `train_best` as written: `train_run(**params, log_model=True)`. */
  function TrainBestAsWritten(runs: seq<RunRow>): Result<TrainCall> {
    var p :- BestParams(runs);
    BindRun(RunArgs(None, Some(p.nEstimators), Some(p.maxDepth), Some(true)))
  }

  /** Every sweep task as written fails before training: the call lacks `dataset_split`. */
  lemma TrainTaskAsWrittenFails(n: int, d: Option<int>)
    ensures TrainTaskAsWritten(n, d) == Err(TypeError)
  {
  }

  /** Counterexample: the first sweep pair, and the best run of the sweep it would have logged,
      both end in TypeError, so no run ever reaches MLflow and no model is ever logged. */
  lemma AcademyFlowsAsWrittenFail(rest: seq<RunRow>)
    ensures TrainTaskAsWritten(EstimatorGrid[0], DepthGrid[0]) == Err(TypeError)
    ensures TrainBestAsWritten([LoggedRow(Params(50, None))] + rest) == Err(TypeError)
  {
    BestParamsOfLogged(Params(50, None), rest);
  }

  /** Whatever MLflow returns, `train_best` as written never produces a training call. */
  lemma TrainBestAsWrittenNeverTrains(runs: seq<RunRow>)
    ensures TrainBestAsWritten(runs).Err?
    ensures BestParams(runs).Ok? ==> TrainBestAsWritten(runs) == Err(TypeError)
  {
  }

  // ---------------------------------------------------------------------------
  //  Corrected: the prepared split is passed, as the workshop flows do
  // ---------------------------------------------------------------------------

  /** `train_task` with the split passed: always trains without logging the model. */
  function TrainTask(ds: Dataset, n: int, d: Option<int>): (r: Result<TrainCall>)
    ensures r.Ok? && !r.value.logModel && r.value.params == Params(n, d) && r.value.dataset == ds
  {
    BindRun(RunArgs(Some(ds), Some(n), Some(d), Some(false)))
  }

  /** `train_sweep`: one task per pair of `product(n_estimators, max_depth)`. */
  function TrainSweep(ds: Dataset): (calls: seq<Result<TrainCall>>)
    ensures |calls| == |Product(EstimatorGrid, DepthGrid)|
    ensures forall k :: 0 <= k < |calls| ==>
      calls[k] == TrainTask(ds, Product(EstimatorGrid, DepthGrid)[k].0, Product(EstimatorGrid, DepthGrid)[k].1)
  {
    var grid := Product(EstimatorGrid, DepthGrid);
    seq(|grid|, k requires 0 <= k < |grid| => TrainTask(ds, grid[k].0, grid[k].1))
  }

  /** Nine tasks in `product` order, each training without logging the model. */
  lemma TrainSweepOrder(ds: Dataset)
    ensures |TrainSweep(ds)| == 9
    ensures forall i, j :: 0 <= i < 3 && 0 <= j < 3 ==>
      TrainSweep(ds)[3 * i + j] == Ok(TrainCall(ds, Params(EstimatorGrid[i], DepthGrid[j]), false))
  {
    forall i, j | 0 <= i < 3 && 0 <= j < 3
      ensures TrainSweep(ds)[3 * i + j] == Ok(TrainCall(ds, Params(EstimatorGrid[i], DepthGrid[j]), false))
    {
      ProductIndex(EstimatorGrid, DepthGrid, i, j);
    }
  }

  /** Each pair of {50, 100, 200} × {None, 5, 10} is trained, nothing else, and none twice. */
  lemma TrainSweepCovers(ds: Dataset, n: int, d: Option<int>)
    ensures Ok(TrainCall(ds, Params(n, d), false)) in TrainSweep(ds) <==> n in EstimatorGrid && d in DepthGrid
    ensures Distinct(TrainSweep(ds))
  {
    var calls := TrainSweep(ds);
    var grid := Product(EstimatorGrid, DepthGrid);
    ProductMembers(EstimatorGrid, DepthGrid, n, d);
    if (n, d) in grid {
      var k :| 0 <= k < |grid| && grid[k] == (n, d);
      assert calls[k] == Ok(TrainCall(ds, Params(n, d), false));
    }
    assert Distinct(EstimatorGrid);
    assert Distinct(DepthGrid);
    ProductDistinct(EstimatorGrid, DepthGrid);
  }

  /** `train_best` with the split passed: exactly the parsed parameters, with `log_model=True`. */
  function TrainBest(ds: Dataset, runs: seq<RunRow>): (r: Result<TrainCall>)
    ensures r.Ok? <==> BestParams(runs).Ok?
    ensures r.Err? ==> r.error == BestParams(runs).error
    ensures r.Ok? ==> r.value == TrainCall(ds, BestParams(runs).value, true)
  {
    var p :- BestParams(runs);
    BindRun(RunArgs(Some(ds), Some(p.nEstimators), Some(p.maxDepth), Some(true)))
  }

  /** The retrained model uses exactly the hyperparameters the best sweep run logged. */
  lemma TrainBestOfLogged(ds: Dataset, best: Params, rest: seq<RunRow>)
    ensures TrainBest(ds, [LoggedRow(best)] + rest) == Ok(TrainCall(ds, best, true))
  {
    BestParamsOfLogged(best, rest);
  }
}

=== FILE: agent_graph.dfy ===
/** The deterministic rules of the policy agent: the `search_policies` tool output, the
    ticket id and reply of `create_ticket`, the routing decision after each model turn, and
    the thread id and initial conversation of `run_agent_with_langgraph`. The chat model, the
    vector store, Python's salted `hash` and the ticket file write are inputs. */
module AgentGraph {
  import opened Wrappers
  import Numerals
  import RagCore
  import PolicyIds

  // ---------------------------------------------------------------------------
  //  search_policies
  // ---------------------------------------------------------------------------

  /** One entry of the tool's JSON output. */
  datatype PolicyHit = PolicyHit(source: string, chunk: int, ids: seq<string>, excerpt: string)

  /** The tool output for the retrieved hits (the retriever is asked for six, and what it
      returns is an input), one entry per hit and in the same order. */
  function SearchPolicies(hits: seq<RagCore.Hit>): (out: seq<PolicyHit>)
    ensures |out| == |hits|
    ensures forall i :: 0 <= i < |hits| ==>
      && out[i].source == hits[i].meta.source
      && out[i].chunk == hits[i].meta.chunk
      && out[i].excerpt == hits[i].text
      && PolicyIds.StrictlySorted(out[i].ids)
      && (forall z :: z in out[i].ids <==> z in PolicyIds.FindAll(hits[i].text))
  {
    seq(|hits|, i requires 0 <= i < |hits| =>
      PolicyHit(hits[i].meta.source, hits[i].meta.chunk, PolicyIds.PolicyIdsIn(hits[i].text), hits[i].text))
  }

  /** Every id listed for a hit has the policy-id shape. */
  lemma SearchPoliciesIdsWellFormed(hits: seq<RagCore.Hit>, i: nat, k: nat)
    requires i < |hits| && k < |SearchPolicies(hits)[i].ids|
    ensures PolicyIds.IsPolicyId(SearchPolicies(hits)[i].ids[k])
  {
    var ids := SearchPolicies(hits)[i].ids;
    assert ids[k] in PolicyIds.FindAll(hits[i].text);
  }

  /** The listed ids are exactly `sorted(set(...))` of what `findall` reports: any strictly
      increasing list with the same members is this list. */
  lemma SearchPoliciesIdsCanonical(hits: seq<RagCore.Hit>, i: nat, ids: seq<string>)
    requires i < |hits|
    requires PolicyIds.StrictlySorted(ids)
    requires forall z :: z in ids <==> z in PolicyIds.FindAll(hits[i].text)
    ensures SearchPolicies(hits)[i].ids == ids
  {
    PolicyIds.SortedUnique(SearchPolicies(hits)[i].ids, ids);
  }

  // ---------------------------------------------------------------------------
  //  create_ticket
  // ---------------------------------------------------------------------------

  const TicketPrefix: string := "TKT-"

  /** `"TKT-" + str(abs(h) % 10_000)` for the hash value `h`. */
  function TicketId(h: int): string {
    var n: nat := if h < 0 then -h else h;
    TicketPrefix + Numerals.ToDigits(n % 10000, 10)
  }

  /** Reads the ticket number back from an id of the `TKT-<n>` form. */
  function TicketNumber(id: string): Option<nat> {
    if |id| > 4 && id[..4] == TicketPrefix && Numerals.Canonical(id[4..], 10) then
      Some(Numerals.ValueOf(id[4..], 10))
    else None
  }

  /** A ticket id is `TKT-` and the canonical decimal form of `abs(h) % 10000`, a number in
      [0, 9999], so it is 5 to 8 characters long. */
  lemma TicketIdShape(h: int)
    ensures var id := TicketId(h);
      && 5 <= |id| <= 8
      && TicketNumber(id) == Some((if h < 0 then -h else h) % 10000)
      && TicketNumber(id).value < 10000
  {
    var n: nat := (if h < 0 then -h else h) % 10000;
    var d := Numerals.ToDigits(n, 10);
    assert Numerals.Pow(10, 4) == 10000;
    Numerals.DigitsLengthBound(n, 10, 4);
    Numerals.ValueOfToDigits(n, 10);
    assert TicketId(h)[4..] == d;
    assert TicketId(h)[..4] == TicketPrefix;
  }

  /** The ticket as kept in memory (and written to disk when that succeeds). */
  datatype Ticket = Ticket(
    ticketId: string, status: string, category: string, description: string,
    createdAt: string, persistError: Option<string>)

  /** The JSON the tool returns. */
  datatype TicketReply = TicketReply(ticketId: string, status: string)

  datatype TicketOutcome = TicketOutcome(record: Ticket, reply: TicketReply)

  /** `create_ticket`: `hash` is the process's string hash, `createdAt` the UTC timestamp and
      `persistError` the message of the exception raised while writing the file, if any. */
  function CreateTicket(category: string, description: string, hash: string -> int,
                        createdAt: string, persistError: Option<string>): (t: TicketOutcome)
    ensures t.reply.status == "created"
    ensures t.reply.ticketId == t.record.ticketId == TicketId(hash(category + description))
    ensures t.record.status == (if persistError.Some? then "created_with_persist_error" else "created")
    ensures t.record.persistError == persistError
    ensures t.record.category == category && t.record.description == description
  {
    var id := TicketId(hash(category + description));
    var record := Ticket(id, "created", category, description, createdAt + "Z", None);
    var record := match persistError
      case None => record
      case Some(e) => record.(status := "created_with_persist_error", persistError := Some(e));
    TicketOutcome(record, TicketReply(id, "created"))
  }

  /** The reply never reveals a persistence failure: it is the same whether or not the
      write failed, and the id depends only on category and description. */
  lemma CreateTicketReplyIgnoresPersistence(category: string, description: string, hash: string -> int,
                                            at1: string, e1: Option<string>, at2: string, e2: Option<string>)
    ensures CreateTicket(category, description, hash, at1, e1).reply
         == CreateTicket(category, description, hash, at2, e2).reply
  {
  }

  // ---------------------------------------------------------------------------
  //  Graph state: routing, thread id, initial conversation
  // ---------------------------------------------------------------------------

  datatype ToolCall = ToolCall(name: string, args: string, id: string)

  /** Conversation messages; only model messages carry `tool_calls`. */
  datatype Message =
    | SystemMsg(content: string)
    | HumanMsg(content: string)
    | AiMsg(content: string, toolCalls: seq<ToolCall>)
    | ToolMsg(content: string, toolCallId: string)

  datatype Node = Tools | End

  /** `route_after_model`: `state["messages"][-1]`, then `"tools"` when it has a non-empty
      `tool_calls`, otherwise END; an empty list raises IndexError. */
  function Route(messages: seq<Message>): (r: Result<Node>)
    ensures r.Err? <==> |messages| == 0
    ensures r.Err? ==> r.error == IndexError
    ensures r == Ok(Tools) <==>
      |messages| > 0 && messages[|messages| - 1].AiMsg? && |messages[|messages| - 1].toolCalls| > 0
  {
    if |messages| == 0 then Err(IndexError)
    else
      var last := messages[|messages| - 1];
      if last.AiMsg? && |last.toolCalls| > 0 then Ok(Tools) else Ok(End)
  }

  /** Only the last message decides the route. */
  lemma RouteLastOnly(history: seq<Message>, m: Message)
    ensures Route(history + [m]) == Route([m])
  {
  }

  const SystemPrompt: string :=
    "You are a policy-bound support agent. Follow these RULES strictly:\n"
    + "1) Always start with a short PLAN before answering.\n"
    + "2) Use tools only when needed:\n"
    + "   - Use `search_policies` BEFORE answering any policy question, lists, IDs, thresholds, examples.\n"
    + "   - Use `calc` to compute exact euro amounts and to apply any caps/limits.\n"
    + "   - Use `create_ticket` if the retrieved sources explicitly require it.\n"
    + "   When a tool is needed, emit a tool call. The final answer will be formatted by the system."
    + "   Multiple tool calls are allowed. For instance: \n"
    + "     - First call `search_policies` to find relevant policies.\n"
    + "     - Then call `calc` to compute refund amounts based on retrieved policy data.\n"
    + "     - Finally, if a ticket is mandated by a TCK-5xx clause, call `create_ticket` with the correct category and reason.\n"
    + "3) When using `search_policies`, cite policy IDs (e.g., [RET-103], [SLA-214]) included in the tool output. "
    + "   Use ONLY facts present in the retrieved sources; do NOT invent.\n"
    + "4) If information is insufficient, say so explicitly and stop.\n"
    + "5) Responses must be concise, in English. "
    + "If refunds/vouchers apply, include the exact euro amount; if a ticket is opened, include type and ticket ID>\n"
    + "6) If refunds or vouchers apply, compute exact values and check caps/limits before answering.\n"
    + "7) Do not open tickets unless a retrieved clause (e.g., TCK-5xx) requires it; cite that clause.\n"
    + "8) When any TCK-5xx clause mandates escalation, call `create_ticket` immediately with the correct `category` and a short `reason`. Do not ask the user for permission, do not invent ticket IDs, and do not claim success until the tool returns.\n"
    + "9) If you mention a ticket in the answer, ensure it was created via the tool; otherwise, call the tool before replying.\n"

  const DefaultThread: string := "default"

  /** `thread_id or "default"` */
  function ThreadId(threadId: Option<string>): (r: string)
    ensures r != ""
    ensures threadId.Some? && threadId.value != "" ==> r == threadId.value
    ensures threadId.None? || threadId.value == "" ==> r == DefaultThread
  {
    match threadId
    case Some(t) => if t != "" then t else DefaultThread
    case None => DefaultThread
  }

  /** What the graph is invoked with and what the caller gets back. */
  datatype Invocation = Invocation(threadId: string, input: seq<Message>)

  datatype AgentReply = AgentReply(finalAnswer: string, threadId: string)

  datatype AgentRun = AgentRun(invocation: Invocation, reply: AgentReply)

  /** `run_agent_with_langgraph`: `history` is what the checkpointer already holds for the
      thread and `produced` the messages the model and tool nodes append during the run;
      the messages reducer concatenates them all. */
  function RunAgent(question: string, threadId: Option<string>,
                    history: seq<Message>, produced: seq<Message>): (run: AgentRun)
    ensures run.invocation.input == [SystemMsg(SystemPrompt), HumanMsg(question)]
    ensures run.reply.threadId == run.invocation.threadId == ThreadId(threadId)
    ensures |produced| > 0 ==> run.reply.finalAnswer == produced[|produced| - 1].content
    ensures |produced| == 0 ==> run.reply.finalAnswer == question
  {
    var tid := ThreadId(threadId);
    var input := [SystemMsg(SystemPrompt), HumanMsg(question)];
    var final := history + input + produced;
    AgentRun(Invocation(tid, input), AgentReply(final[|final| - 1].content, tid))
  }

  /** Two runs on the same thread id, one with the id omitted and one with an empty id, are
      invoked identically. */
  lemma RunAgentDefaultThread(question: string, history: seq<Message>, produced: seq<Message>)
    ensures RunAgent(question, None, history, produced) == RunAgent(question, Some(""), history, produced)
    ensures RunAgent(question, None, history, produced).reply.threadId == DefaultThread
  {
  }
}

=== FILE: direct_backend.dfy ===
/** The `/process` handler of the directly instrumented backend: continue the caller's
    trace when the request carries one, otherwise start a new trace, and tag the metric and
    the log line with the unpadded hex trace id. */
module DirectBackend {
  import opened Wrappers
  import Numerals
  import opened Jaeger
  import opened Telemetry

  const Reply: string := "Processed data in Backend!"

  datatype Handled = Handled(span: SpanContext, effects: seq<Effect>, body: string)

  /** The `try`/`except` around extraction: a decoded parent gives a child span; a missing
      header (no parent) or a corrupted one (the exception path) gives a new root span. */
  function StartSpan(headers: Headers, ids: FreshIds): (c: SpanContext)
    ensures Extract(headers).Found? ==> c == ChildSpan(Extract(headers).context, ids)
    ensures !Extract(headers).Found? ==> c == RootSpan(ids)
  {
    match Extract(headers)
    case Found(parent) => ChildSpan(parent, ids)
    case _ => RootSpan(ids)
  }

  /** `format(span.trace_id, "x")` */
  function TraceTag(c: SpanContext): string {
    Numerals.Hex(c.traceId)
  }

  /** `process`: always answers, with one metric and one log line under the span's tag. */
  function Process(headers: Headers, ids: FreshIds, clientIp: string, duration: real): (r: Handled)
    ensures r.span == StartSpan(headers, ids)
    ensures r.body == Reply
    ensures Correlated(r.effects, TraceTag(r.span))
    ensures |r.effects| == 2 && r.effects[0].RecordMetric? && r.effects[0].duration == duration
    ensures r.effects[1].EmitLog? && r.effects[1].message == "Backend: Processing request from '" + clientIp + "'"
  {
    var span := StartSpan(headers, ids);
    var tag := TraceTag(span);
    var effects := [RecordMetric(tag, duration), EmitLog("Backend: Processing request from '" + clientIp + "'", tag)];
    CorrelatedSequence(tag, duration, [], "Backend: Processing request from '" + clientIp + "'");
    assert effects == [RecordMetric(tag, duration)] + [] + [effects[1]];
    Handled(span, effects, Reply)
  }

  /** Called without usable trace context, the request is served under a new trace rather
      than failing. */
  lemma ProcessFallsBack(headers: Headers, ids: FreshIds, clientIp: string, duration: real)
    requires Extract(headers).Missing? || Extract(headers).Corrupted?
    ensures var r := Process(headers, ids, clientIp, duration);
      r.span.traceId == ids.traceId && r.span.parentId == 0 && r.body == Reply
      && Correlated(r.effects, Numerals.Hex(ids.traceId))
  {
  }

  /** The tag is the shortest lowercase hex form of the trace id and reads back as it. */
  lemma TraceTagRoundTrip(c: SpanContext)
    ensures Numerals.Canonical(TraceTag(c), 16)
    ensures Numerals.ParseHex(TraceTag(c)) == Some(c.traceId)
  {
    Numerals.ParseHexOfHex(c.traceId);
  }
}

=== FILE: direct_frontend.dfy ===
/** The `/` handler of the directly instrumented frontend: start a trace, put its context
    into the headers of the backend call, and tag the metric and the log line with the
    unpadded hex trace id. The backend's answer is an input. */
module DirectFrontend {
  import opened Wrappers
  import opened Strings
  import Numerals
  import opened Jaeger
  import opened Telemetry

  const ReplyPrefix: string := "Frontend received: "

  /** What `requests.get` yields: the response text, or a connection failure. */
  datatype BackendAnswer = Answered(text: string) | Unreachable

  datatype Served = Served(span: SpanContext, effects: seq<Effect>, response: Result<string>)

  function TraceTag(c: SpanContext): string {
    Numerals.Hex(c.traceId)
  }

  /** The outbound headers: an empty dict into which the span context is injected. */
  function OutboundHeaders(c: SpanContext): (h: Headers)
    ensures |h| == 1 && h[0].0 == TraceHeader && Decode(h[0].1) == Some(c)
  {
    Inject(c)
  }

  /** `index`: record the metric, call the backend, log, and wrap the backend's text. A
      connection failure propagates out of the handler before the log line. */
  function Index(ids: FreshIds, backendUrl: string, duration: real, answer: BackendAnswer): (r: Served)
    ensures r.span == RootSpan(ids)
    ensures |r.effects| >= 2
    ensures r.effects[0] == RecordMetric(TraceTag(r.span), duration)
    ensures r.effects[1] == HttpGet(backendUrl, OutboundHeaders(r.span))
    ensures answer.Answered? ==>
      && Correlated(r.effects, TraceTag(r.span))
      && r.response == Ok(ReplyPrefix + answer.text)
    ensures answer.Unreachable? ==>
      && MetricIds(r.effects) == [TraceTag(r.span)] && LogIds(r.effects) == []
      && r.response == Err(ConnectionError)
  {
    var span := RootSpan(ids);
    var tag := TraceTag(span);
    var metric := RecordMetric(tag, duration);
    var call := HttpGet(backendUrl, OutboundHeaders(span));
    match answer
    case Unreachable =>
      var effects := [metric, call];
      IdsAppend([metric], [call]);
      IdsOne(metric);
      IdsOne(call);
      Served(span, effects, Err(ConnectionError))
    case Answered(text) =>
      var effects := [metric, call, EmitLog("Frontend: request at '" + backendUrl + "' endpoint completed", tag)];
      CorrelatedSequence(tag, duration, [call], effects[2].message);
      assert effects == [metric] + [call] + [effects[2]];
      Served(span, effects, Ok(ReplyPrefix + text))
  }

  /** The reply starts with the fixed prefix and ends with exactly the backend's text. */
  lemma IndexReply(ids: FreshIds, backendUrl: string, duration: real, text: string)
    ensures var reply := Index(ids, backendUrl, duration, Answered(text)).response.value;
      IsPrefix(ReplyPrefix, reply) && reply[|ReplyPrefix|..] == text
  {
  }
}

=== FILE: jaeger.dfy ===
/** The part of the Jaeger client the direct-instrumentation services rely on: span
    contexts, starting a root or a child span, and carrying a context across an HTTP call
    in the `uber-trace-id` header as `trace:span:parent:flags` in lowercase hex. Random id
    generation is an input (`FreshIds`). */
module Jaeger {
  import opened Wrappers
  import opened Strings
  import Numerals

  datatype SpanContext = SpanContext(traceId: nat, spanId: nat, parentId: nat, flags: nat)

  /** The ids the tracer's random generator supplies for a new span. */
  datatype FreshIds = FreshIds(traceId: nat, spanId: nat)

  /** The sampled flag: under the constant sampler with parameter 1 every root span carries it. */
  const SampledFlag: nat := 1

  /** `start_span(name)` with no parent: a new trace. */
  function RootSpan(ids: FreshIds): (c: SpanContext)
    ensures c.traceId == ids.traceId && c.parentId == 0 && c.flags == SampledFlag
  {
    SpanContext(ids.traceId, ids.spanId, 0, SampledFlag)
  }

  /** `start_span(name, child_of=parent)`: same trace, the parent's span as parent. */
  function ChildSpan(parent: SpanContext, ids: FreshIds): (c: SpanContext)
    ensures c.traceId == parent.traceId && c.parentId == parent.spanId && c.flags == parent.flags
  {
    SpanContext(parent.traceId, ids.spanId, parent.spanId, parent.flags)
  }

  // ---------------------------------------------------------------------------
  //  The uber-trace-id codec
  // ---------------------------------------------------------------------------

  const TraceHeader: string := "uber-trace-id"

  /** HTTP headers as the ordered name/value pairs of a request. */
  type Headers = seq<(string, string)>

  lemma NoColonInHex(n: nat)
    ensures ':' !in Numerals.Hex(n)
  {
    var h := Numerals.Hex(n);
    forall i | 0 <= i < |h| ensures h[i] != ':' {
      assert Numerals.IsDigit(h[i], 16);
    }
  }

  function Encode(c: SpanContext): (v: string) {
    Join([Numerals.Hex(c.traceId), Numerals.Hex(c.spanId), Numerals.Hex(c.parentId), Numerals.Hex(c.flags)], [':'])
  }

  /** Reads `trace:span:parent:flags`; anything else is a corrupted context. */
  function Decode(v: string): (r: Option<SpanContext>)
    ensures r.Some? ==> |Split(v, ':')| == 4
    ensures r.Some? ==> forall k :: 0 <= k < 4 ==> Numerals.ParseHex(Split(v, ':')[k]).Some?
  {
    var parts := Split(v, ':');
    if |parts| != 4 then None
    else
      var t :- Numerals.ParseHex(parts[0]);
      var s :- Numerals.ParseHex(parts[1]);
      var p :- Numerals.ParseHex(parts[2]);
      var f :- Numerals.ParseHex(parts[3]);
      Some(SpanContext(t, s, p, f))
  }

  /** Round trip: a context written into the header is read back unchanged. */
  lemma DecodeEncode(c: SpanContext)
    ensures Decode(Encode(c)) == Some(c)
  {
    var parts := [Numerals.Hex(c.traceId), Numerals.Hex(c.spanId), Numerals.Hex(c.parentId), Numerals.Hex(c.flags)];
    NoColonInHex(c.traceId);
    NoColonInHex(c.spanId);
    NoColonInHex(c.parentId);
    NoColonInHex(c.flags);
    SplitJoin(parts, ':');
    Numerals.ParseHexOfHex(c.traceId);
    Numerals.ParseHexOfHex(c.spanId);
    Numerals.ParseHexOfHex(c.parentId);
    Numerals.ParseHexOfHex(c.flags);
  }

  /** Round trip the other way: a header value whose four fields are canonical hex is
      exactly the encoding of the context read from it. */
  lemma EncodeDecode(v: string)
    requires Decode(v).Some?
    requires forall k :: 0 <= k < 4 ==> Numerals.Canonical(Split(v, ':')[k], 16)
    ensures Encode(Decode(v).value) == v
  {
    var parts := Split(v, ':');
    forall k | 0 <= k < 4 ensures Numerals.Hex(Numerals.ValueOf(parts[k], 16)) == parts[k] {
      Numerals.ToDigitsValueOf(parts[k], 16);
    }
    assert parts == [parts[0], parts[1], parts[2], parts[3]];
    JoinSplit(v, ':');
  }

  /** `tracer.inject(ctx, Format.HTTP_HEADERS, {})`: the one header it writes. */
  function Inject(c: SpanContext): (h: Headers)
    ensures |h| == 1 && h[0].0 == TraceHeader && Decode(h[0].1) == Some(c)
  {
    DecodeEncode(c);
    [(TraceHeader, Encode(c))]
  }

  predicate IsTraceHeader(name: string) {
    Lower(name) == TraceHeader
  }

  /** Index of the first header whose name is `uber-trace-id` in any letter case. */
  function FindTraceHeader(h: Headers): (r: Option<nat>)
    ensures r.Some? ==> r.value < |h| && IsTraceHeader(h[r.value].0)
    ensures r.Some? ==> forall k :: 0 <= k < r.value ==> !IsTraceHeader(h[k].0)
    ensures r.None? ==> forall k :: 0 <= k < |h| ==> !IsTraceHeader(h[k].0)
    decreases |h|
  {
    if |h| == 0 then None
    else if IsTraceHeader(h[0].0) then Some(0)
    else
      match FindTraceHeader(h[1..])
      case None => None
      case Some(i) => Some(i + 1)
  }

  datatype Extraction = Found(context: SpanContext) | Missing | Corrupted

  /** `tracer.extract(Format.HTTP_HEADERS, headers)`: no trace header gives no parent; a
      trace header that does not decode raises the corrupted-context error. */
  function Extract(h: Headers): (r: Extraction)
    ensures r.Missing? <==> forall k :: 0 <= k < |h| ==> !IsTraceHeader(h[k].0)
    ensures r.Found? ==> exists k :: 0 <= k < |h| && IsTraceHeader(h[k].0) && Decode(h[k].1) == Some(r.context)
  {
    match FindTraceHeader(h)
    case None => Missing
    case Some(i) =>
      match Decode(h[i].1)
      case None => Corrupted
      case Some(c) => Found(c)
  }

  /** The first trace header decides: a context found is its decoding, and the context is
      corrupted exactly when that header does not decode. */
  lemma ExtractFirstHeader(h: Headers)
    ensures Extract(h).Found? ==> Decode(h[FindTraceHeader(h).value].1) == Some(Extract(h).context)
    ensures Extract(h).Corrupted? <==> FindTraceHeader(h).Some? && Decode(h[FindTraceHeader(h).value].1).None?
  {
  }

  /** What the receiver sees is what was sent, up to the letter case of header names
      (the server may re-case them). */
  ghost predicate SameUpToCase(sent: Headers, received: Headers) {
    |sent| == |received|
    && forall k :: 0 <= k < |sent| ==> Lower(received[k].0) == Lower(sent[k].0) && received[k].1 == sent[k].1
  }

  lemma {:induction false} FindTraceHeaderUpToCase(sent: Headers, received: Headers)
    requires SameUpToCase(sent, received)
    ensures FindTraceHeader(received) == FindTraceHeader(sent)
    decreases |sent|
  {
    if |sent| > 0 {
      assert SameUpToCase(sent[1..], received[1..]) by {
        forall k | 0 <= k < |sent[1..]|
          ensures Lower(received[1..][k].0) == Lower(sent[1..][k].0) && received[1..][k].1 == sent[1..][k].1
        {
          assert sent[1..][k] == sent[k + 1] && received[1..][k] == received[k + 1];
        }
      }
      FindTraceHeaderUpToCase(sent[1..], received[1..]);
    }
  }

  /** Extraction does not depend on how the header names are cased. */
  lemma ExtractUpToCase(sent: Headers, received: Headers)
    requires SameUpToCase(sent, received)
    ensures Extract(received) == Extract(sent)
  {
    FindTraceHeaderUpToCase(sent, received);
  }

  lemma TraceHeaderIsLower()
    ensures IsTraceHeader(TraceHeader)
  {
    assert Lower(TraceHeader) == TraceHeader;
  }

  /** `received[k]` is the first header naming the trace, in any letter case, and carries
      `value`; any other headers (host, user agent, ...) may come before or after it. */
  predicate TraceHeaderAt(received: Headers, k: nat, value: string) {
    && k < |received| && IsTraceHeader(received[k].0) && received[k].1 == value
    && forall j :: 0 <= j < k ==> !IsTraceHeader(received[j].0)
  }

  /** Round trip across the wire: when the injected header's value arrives as the first trace
      header among whatever headers the request carries, the receiver extracts exactly the
      injected context. */
  lemma ExtractInject(c: SpanContext, received: Headers, k: nat)
    requires TraceHeaderAt(received, k, Inject(c)[0].1)
    ensures Extract(received) == Found(c)
  {
  }
}

=== FILE: mlflow_runs.dfy ===
/** What both training pipelines do with MLflow's answers: read the best run's
    hyperparameters back from their logged string form, pick the `.pkl` artifact,
    and enumerate a hyperparameter grid the way `itertools.product` does. The
    tracking server itself is an input: `runs` is the result of `search_runs`
    (already ordered by the metric, best first) and `artifacts` the listed paths. */
module MlflowRuns {
  import opened Wrappers
  import opened Strings
  import Numerals

  // ---------------------------------------------------------------------------
  //  Best hyperparameters
  // ---------------------------------------------------------------------------

  /** One row of `search_runs`: the logged `params.*` values, `None` where the run has no
      such parameter. Both searches ask for a single row, so the frame then has no such
      column at all and `best["params.…"]` raises KeyError. */
  datatype RunRow = RunRow(nEstimators: Option<string>, maxDepth: Option<string>)

  datatype Params = Params(nEstimators: int, maxDepth: Option<int>)

  /** The prepared train/test split a flow hands to training, identified by a tag. */
  datatype Dataset = Prepared(tag: nat)

  /** One call of the training entry point with its bound arguments. */
  datatype TrainCall = TrainCall(dataset: Dataset, params: Params, logModel: bool)

  /** `int(best["params.n_estimators"])`: KeyError without the column, and whatever `int()`
      makes of the logged string otherwise. */
  function ParseNEstimators(cell: Option<string>): (r: Result<int>)
    ensures cell.None? ==> r == Err(KeyError)
    ensures cell.Some? ==> r == Numerals.PyInt(cell.value)
  {
    match cell
    case None => Err(KeyError)
    case Some(s) => Numerals.PyInt(s)
  }

  /** `None if v in ("", "None") else int(v)` for `v = best["params.max_depth"]`; the lookup
      raises KeyError without the column. */
  function ParseMaxDepth(cell: Option<string>): (r: Result<Option<int>>)
    ensures cell == Some("") || cell == Some("None") <==> r == Ok(None)
    ensures cell.Some? && cell.value != "" && cell.value != "None" ==>
      (r.Ok? <==> Numerals.PyInt(cell.value).Ok?)
      && (r.Ok? ==> r.value == Some(Numerals.PyInt(cell.value).value))
    ensures cell.None? ==> r == Err(KeyError)
    ensures cell.Some? && r.Err? ==> r.error == ValueError
  {
    match cell
    case None => Err(KeyError)
    case Some(s) =>
      if s == "" || s == "None" then Ok(None)
      else
        var v :- Numerals.PyInt(s);
        Ok(Some(v))
  }

  /** `runs.iloc[0]` then both parses; an empty search result raises IndexError. */
  function BestParams(runs: seq<RunRow>): (r: Result<Params>)
    ensures |runs| == 0 ==> r == Err(IndexError)
    ensures |runs| > 0 ==>
      (r.Ok? <==> ParseNEstimators(runs[0].nEstimators).Ok? && ParseMaxDepth(runs[0].maxDepth).Ok?)
  {
    if |runs| == 0 then Err(IndexError)
    else
      var n :- ParseNEstimators(runs[0].nEstimators);
      var d :- ParseMaxDepth(runs[0].maxDepth);
      Ok(Params(n, d))
  }

  /** How `mlflow.log_param` stores a depth: `str(max_depth)`. */
  function LoggedDepth(d: Option<int>): string {
    match d
    case None => "None"
    case Some(v) => Numerals.IntStr(v)
  }

  /** What a training run logs for its hyperparameters. */
  function LoggedRow(p: Params): RunRow {
    RunRow(Some(Numerals.IntStr(p.nEstimators)), Some(LoggedDepth(p.maxDepth)))
  }

  lemma IntStrNotNone(v: int)
    ensures Numerals.IntStr(v) != "" && Numerals.IntStr(v) != "None"
  {
    var s := Numerals.IntStr(v);
    if v >= 0 {
      assert Numerals.IsDigit(s[0], 10);
    } else {
      assert s[0] == '-';
    }
  }

  /** Round trip: the parameters read back from the best run are the ones it logged. */
  lemma BestParamsOfLogged(p: Params, rest: seq<RunRow>)
    ensures BestParams([LoggedRow(p)] + rest) == Ok(p)
  {
    Numerals.PyIntOfIntStr(p.nEstimators);
    match p.maxDepth
    case None =>
    case Some(v) =>
      IntStrNotNone(v);
      Numerals.PyIntOfIntStr(v);
  }

  // ---------------------------------------------------------------------------
  //  The .pkl artifact
  // ---------------------------------------------------------------------------

  predicate IsPickle(path: string) {
    EndsWith(path, ".pkl")
  }

  /** Index of the first listed path ending in `.pkl`. */
  function FirstPickle(paths: seq<string>): (r: Option<nat>)
    ensures r.Some? ==> r.value < |paths| && IsPickle(paths[r.value])
    ensures r.Some? ==> forall k :: 0 <= k < r.value ==> !IsPickle(paths[k])
    ensures r.None? ==> forall k :: 0 <= k < |paths| ==> !IsPickle(paths[k])
    decreases |paths|
  {
    if |paths| == 0 then None
    else if IsPickle(paths[0]) then Some(0)
    else
      match FirstPickle(paths[1..])
      case None => None
      case Some(i) => Some(i + 1)
  }

  /** `next(a.path for a in artifacts if a.path.endswith(".pkl"))`: StopIteration when none. */
  function SelectPickle(paths: seq<string>): (r: Result<string>)
    ensures r.Err? <==> forall k :: 0 <= k < |paths| ==> !IsPickle(paths[k])
    ensures r.Err? ==> r.error == StopIteration
    ensures r.Ok? ==> exists i :: 0 <= i < |paths| && paths[i] == r.value && IsPickle(r.value)
                                 && forall k :: 0 <= k < i ==> !IsPickle(paths[k])
  {
    match FirstPickle(paths)
    case None => Err(StopIteration)
    case Some(i) => Ok(paths[i])
  }

  /** `download_best_model`: the best run's id (`runs.iloc[0]["run_id"]`, IndexError when the
      search is empty) and the first `.pkl` path among that run's artifacts (StopIteration when
      there is none). */
  function DownloadBestModel(runIds: seq<string>, artifactsOf: string -> seq<string>): (r: Result<(string, string)>)
    ensures |runIds| == 0 ==> r == Err(IndexError)
    ensures |runIds| > 0 ==> (r.Ok? <==> SelectPickle(artifactsOf(runIds[0])).Ok?)
    ensures |runIds| > 0 && r.Err? ==> r.error == StopIteration
    ensures r.Ok? ==> r.value.0 == runIds[0] && IsPickle(r.value.1) && r.value.1 in artifactsOf(runIds[0])
    ensures r.Ok? ==> r.value.1 == SelectPickle(artifactsOf(runIds[0])).value
  {
    if |runIds| == 0 then Err(IndexError)
    else
      var path :- SelectPickle(artifactsOf(runIds[0]));
      Ok((runIds[0], path))
  }

  // ---------------------------------------------------------------------------
  //  itertools.product
  // ---------------------------------------------------------------------------

  function Pairs<A, B>(a: A, ys: seq<B>): (r: seq<(A, B)>)
    ensures |r| == |ys| && forall j :: 0 <= j < |ys| ==> r[j] == (a, ys[j])
  {
    seq(|ys|, j requires 0 <= j < |ys| => (a, ys[j]))
  }

  /** `list(product(xs, ys))`: the first factor varies slowest. */
  function Product<A, B>(xs: seq<A>, ys: seq<B>): (r: seq<(A, B)>)
    ensures |r| == |xs| * |ys|
    decreases |xs|
  {
    if |xs| == 0 then [] else Pairs(xs[0], ys) + Product(xs[1..], ys)
  }

  /** Pair number `i·|ys| + j` is `(xs[i], ys[j])`. */
  lemma {:induction false} ProductIndex<A, B>(xs: seq<A>, ys: seq<B>, i: nat, j: nat)
    requires i < |xs| && j < |ys|
    ensures i * |ys| + j < |Product(xs, ys)|
    ensures Product(xs, ys)[i * |ys| + j] == (xs[i], ys[j])
    decreases i
  {
    var m := |ys|;
    var rest := Product(xs[1..], ys);
    assert Product(xs, ys) == Pairs(xs[0], ys) + rest;
    if i > 0 {
      ProductIndex(xs[1..], ys, i - 1, j);
      ProductIndexShift(i, m, j);
      assert xs[1..][i - 1] == xs[i];
      assert (Pairs(xs[0], ys) + rest)[m + ((i - 1) * m + j)] == rest[(i - 1) * m + j];
    }
  }

  /** The arithmetic of one step of `ProductIndex`. */
  lemma ProductIndexShift(i: nat, m: nat, j: nat)
    requires i > 0
    ensures i * m + j == m + ((i - 1) * m + j)
  {
  }

  /** The product holds exactly the pairs of an element of `xs` and an element of `ys`. */
  lemma {:induction false} ProductMembers<A, B>(xs: seq<A>, ys: seq<B>, a: A, b: B)
    ensures (a, b) in Product(xs, ys) <==> a in xs && b in ys
    decreases |xs|
  {
    if |xs| > 0 {
      ProductMembers(xs[1..], ys, a, b);
      assert xs == [xs[0]] + xs[1..];
      if b in ys && a == xs[0] {
        var j :| 0 <= j < |ys| && ys[j] == b;
        assert Pairs(xs[0], ys)[j] == (a, b);
      }
    }
  }

  ghost predicate Distinct<T>(s: seq<T>) {
    forall i, j :: 0 <= i < j < |s| ==> s[i] != s[j]
  }

  /** Without repeated values in either list, no pair is submitted twice. */
  lemma {:induction false} ProductDistinct<A, B>(xs: seq<A>, ys: seq<B>)
    requires Distinct(xs) && Distinct(ys)
    ensures Distinct(Product(xs, ys))
    decreases |xs|
  {
    if |xs| > 0 {
      var p := Pairs(xs[0], ys);
      var rest := Product(xs[1..], ys);
      ProductDistinct(xs[1..], ys);
      forall k | 0 <= k < |rest| ensures rest[k].0 != xs[0] {
        assert rest[k] in rest;
        ProductMembers(xs[1..], ys, rest[k].0, rest[k].1);
        var i :| 0 <= i < |xs[1..]| && xs[1..][i] == rest[k].0;
      }
      assert Product(xs, ys) == p + rest;
    }
  }
}

=== FILE: monitor.dfy ===
/** `compute_drift`: the minimum per-column drift score of an Evidently report. The JSON
    report is modelled by the parts the function reads: the list under "metrics", and for
    the second entry its `result.drift_by_columns` table. */
module Monitor {
  import opened Wrappers

  /** One `drift_by_columns` entry; `score` is None when it has no "drift_score" key. */
  datatype Column = Column(name: string, score: Option<real>)

  /** A "metrics" entry: either one holding `result.drift_by_columns`, or any other. */
  datatype Metric = DriftTable(columns: seq<Column>) | OtherMetric

  datatype Report = Report(metrics: seq<Metric>)

  predicate AllScored(cols: seq<Column>) {
    forall k :: 0 <= k < |cols| ==> cols[k].score.Some?
  }

  /** The scores `compute_drift` collects, one per column in table order. */
  function Scores(cols: seq<Column>): (pvals: seq<real>)
    requires AllScored(cols)
    ensures |pvals| == |cols| && forall k :: 0 <= k < |cols| ==> pvals[k] == cols[k].score.value
  {
    seq(|cols|, k requires 0 <= k < |cols| => cols[k].score.value)
  }

  /** `report["metrics"][1]["result"]["drift_by_columns"]`, collected into `pvals`, then
      `min(pvals)`. A short "metrics" list raises IndexError, a missing key KeyError, and
      an empty table ValueError. */
  method ComputeDrift(report: Report) returns (r: Result<real>)
    ensures r.Ok? <==>
      |report.metrics| >= 2 && report.metrics[1].DriftTable?
      && |report.metrics[1].columns| > 0 && AllScored(report.metrics[1].columns)
    ensures r.Err? && r.error == IndexError <==> |report.metrics| < 2
    ensures r.Err? && r.error == KeyError <==>
      |report.metrics| >= 2 && (report.metrics[1].OtherMetric? || !AllScored(report.metrics[1].columns))
    ensures r.Err? && r.error == ValueError <==>
      |report.metrics| >= 2 && report.metrics[1].DriftTable? && |report.metrics[1].columns| == 0
    ensures r.Ok? ==>
      var pvals := Scores(report.metrics[1].columns);
      r.value in pvals && forall k :: 0 <= k < |pvals| ==> r.value <= pvals[k]
  {
    if |report.metrics| < 2 {
      return Err(IndexError);
    }
    var m := report.metrics[1];
    if m.OtherMetric? {
      return Err(KeyError);
    }
    var cols := m.columns;
    var pvals: seq<real> := [];
    for i := 0 to |cols|
      invariant |pvals| == i
      invariant forall k :: 0 <= k < i ==> cols[k].score.Some? && pvals[k] == cols[k].score.value
    {
      match cols[i].score
      case None =>
        return Err(KeyError);
      case Some(s) =>
        pvals := pvals + [s];
    }
    assert pvals == Scores(cols);
    if |pvals| == 0 {
      return Err(ValueError);
    }
    var best := pvals[0];
    for i := 1 to |pvals|
      invariant best in pvals[..i]
      invariant forall k :: 0 <= k < i ==> best <= pvals[k]
    {
      if pvals[i] < best {
        best := pvals[i];
      }
    }
    assert pvals[..|pvals|] == pvals;
    return Ok(best);
  }
}

=== FILE: numerals.dfy ===
/** Digit strings in base 10 and base 16: Python's `str(n)`, `format(n, "x")`,
    `f"{n:032x}"` and `int(s)`, and a strict lowercase-hex reader. */
module Numerals {
  import opened Wrappers

  type Base = b: nat | 2 <= b <= 16 witness 10

  /** Value of a digit character in the lowercase alphabet 0-9a-f; 16 for any other character. */
  function CharValue(c: char): nat {
    if '0' <= c <= '9' then c as nat - '0' as nat
    else if 'a' <= c <= 'f' then c as nat - 'a' as nat + 10
    else 16
  }

  predicate IsDigit(c: char, base: Base) {
    CharValue(c) < base
  }

  predicate AllDigits(s: string, base: Base) {
    forall i :: 0 <= i < |s| ==> IsDigit(s[i], base)
  }

  /** A digit string with no redundant leading zero. */
  predicate Canonical(s: string, base: Base) {
    |s| > 0 && AllDigits(s, base) && (s[0] == '0' ==> |s| == 1)
  }

  function DigitChar(d: nat): (c: char)
    requires d < 16
    ensures CharValue(c) == d
    ensures c != '-' && c != ':' && c != '_'
  {
    if d < 10 then ('0' as nat + d) as char else ('a' as nat + d - 10) as char
  }

  /** The shortest digit string of `n` (Python `str(n)` in base 10, `format(n, "x")` in base 16). */
  function ToDigits(n: nat, base: Base): (s: string)
    ensures Canonical(s, base)
    decreases n
  {
    if n < base then [DigitChar(n)] else ToDigits(n / base, base) + [DigitChar(n % base)]
  }

  /** The number a digit string denotes. */
  function ValueOf(s: string, base: Base): nat
    requires AllDigits(s, base)
    decreases |s|
  {
    if |s| == 0 then 0 else ValueOf(s[..|s| - 1], base) * base + CharValue(s[|s| - 1])
  }

  function Pow(base: nat, k: nat): nat {
    if k == 0 then 1 else base * Pow(base, k - 1)
  }

  /** Reading back the digits of `n` gives `n`. */
  lemma {:induction false} ValueOfToDigits(n: nat, base: Base)
    ensures ValueOf(ToDigits(n, base), base) == n
    decreases n
  {
    if n >= base {
      var s := ToDigits(n / base, base);
      var t := s + [DigitChar(n % base)];
      DivLess(n, base);
      ValueOfToDigits(n / base, base);
      assert t[..|t| - 1] == s;
      assert ValueOf(t, base) == ValueOf(s, base) * base + n % base;
      DivMod(n, base);
    }
  }

  lemma DivLess(n: nat, base: Base)
    requires n >= base
    ensures 0 < n / base < n
  {
  }

  lemma DivMod(n: nat, base: Base)
    ensures (n / base) * base + n % base == n
  {
  }

  lemma {:induction false} LeadingNonZero(s: string, base: Base)
    requires |s| > 0 && AllDigits(s, base) && s[0] != '0'
    ensures ValueOf(s, base) > 0
    decreases |s|
  {
    if |s| > 1 {
      var init := s[..|s| - 1];
      assert init[0] == s[0];
      assert AllDigits(init, base) by {
        forall i | 0 <= i < |init| ensures IsDigit(init[i], base) {
          assert init[i] == s[i];
        }
      }
      LeadingNonZero(init, base);
      MulAtLeast(ValueOf(init, base), base);
    } else {
      assert CharValue(s[0]) != 0;
    }
  }

  lemma MulAtLeast(v: nat, base: nat)
    requires v > 0
    ensures v * base >= base
  {
    if v > 1 {
      MulAtLeast(v - 1, base);
      assert v * base == (v - 1) * base + base;
    }
  }

  /** Writing back the value of a canonical digit string gives the same string. */
  lemma {:induction false} ToDigitsValueOf(s: string, base: Base)
    requires Canonical(s, base)
    ensures ToDigits(ValueOf(s, base), base) == s
    decreases |s|
  {
    var last := s[|s| - 1];
    DigitCharOfValue(last, base);
    if |s| > 1 {
      var init := s[..|s| - 1];
      var v := ValueOf(init, base);
      var d := CharValue(last);
      LeadingNonZero(init, base);
      ToDigitsValueOf(init, base);
      DivModOfDigit(v, d, base);
      assert ValueOf(s, base) == v * base + d;
      assert ToDigits(v * base + d, base) == ToDigits(v, base) + [DigitChar(d)];
      assert s == init + [last];
    }
  }

  lemma DigitCharOfValue(c: char, base: Base)
    requires IsDigit(c, base)
    ensures DigitChar(CharValue(c)) == c
  {
  }

  lemma DivModOfDigit(v: nat, d: nat, base: Base)
    requires 0 < v && d < base
    ensures v * base + d >= base
    ensures (v * base + d) / base == v && (v * base + d) % base == d
  {
    MulAtLeast(v, base);
    DivModUnique(v * base + d, base, v, d);
  }

  /** Euclidean division has one quotient and one remainder. */
  lemma DivModUnique(a: nat, b: nat, q: nat, r: nat)
    requires b > 0 && r < b && a == q * b + r
    ensures a / b == q && a % b == r
  {
    var q', r' := a / b, a % b;
    assert a == q' * b + r';
    if q' > q {
      MulAtLeast(q' - q, b);
    } else if q > q' {
      MulAtLeast(q - q', b);
    }
  }

  /** Different numbers have different digit strings. */
  lemma ToDigitsInjective(m: nat, n: nat, base: Base)
    requires ToDigits(m, base) == ToDigits(n, base)
    ensures m == n
  {
    ValueOfToDigits(m, base);
    ValueOfToDigits(n, base);
  }

  /** A `k`-digit string denotes a number below `base^k`. */
  lemma {:induction false} ValueBelowPow(s: string, base: Base)
    requires AllDigits(s, base)
    ensures ValueOf(s, base) < Pow(base, |s|)
    decreases |s|
  {
    if |s| > 0 {
      ValueBelowPow(s[..|s| - 1], base);
      NextDigitBelow(ValueOf(s[..|s| - 1], base), CharValue(s[|s| - 1]), base, Pow(base, |s| - 1));
    }
  }

  lemma NextDigitBelow(v: nat, d: nat, base: Base, p: nat)
    requires v < p && d < base
    ensures v * base + d < base * p
  {
    assert (v + 1) * base <= p * base;
  }

  /** Numbers below `base^k` have at most `k` digits. */
  lemma {:induction false} DigitsLengthBound(n: nat, base: Base, k: nat)
    requires 1 <= k && n < Pow(base, k)
    ensures |ToDigits(n, base)| <= k
    decreases k
  {
    if n >= base {
      assert Pow(base, 1) == base;
      assert k > 1;
      DivBelow(n, base, Pow(base, k - 1));
      DivLess(n, base);
      DigitsLengthBound(n / base, base, k - 1);
    }
  }

  lemma DivBelow(n: nat, base: Base, p: nat)
    requires n < base * p
    ensures n / base < p
  {
  }

  /** Leading zeros do not change the value of a digit string. */
  lemma {:induction false} ValueOfZeroPadded(z: nat, s: string, base: Base)
    requires AllDigits(s, base)
    ensures AllDigits(Zeros(z) + s, base)
    ensures ValueOf(Zeros(z) + s, base) == ValueOf(s, base)
    decreases |s|
  {
    if |s| == 0 {
      ValueOfZeros(z, base);
      assert Zeros(z) + s == Zeros(z);
    } else {
      var t := Zeros(z) + s;
      assert t[..|t| - 1] == Zeros(z) + s[..|s| - 1];
      ValueOfZeroPadded(z, s[..|s| - 1], base);
    }
  }

  lemma {:induction false} ValueOfZeros(z: nat, base: Base)
    ensures AllDigits(Zeros(z), base)
    ensures ValueOf(Zeros(z), base) == 0
    decreases z
  {
    if z > 0 {
      assert Zeros(z)[..z - 1] == Zeros(z - 1);
      ValueOfZeros(z - 1, base);
    }
  }

  function Zeros(z: nat): (s: string)
    ensures |s| == z && forall i :: 0 <= i < z ==> s[i] == '0'
  {
    seq(z, _ => '0')
  }

  // ---------------------------------------------------------------------------
  //  Rendering: str(n), format(n, "x"), f"{n:0<width>x}"
  // ---------------------------------------------------------------------------

  /** Python `str(i)` for an int. */
  function IntStr(i: int): string {
    if i < 0 then "-" + ToDigits(-i, 10) else ToDigits(i, 10)
  }

  /** Python `format(n, "x")`: lowercase hex, no padding, no prefix. */
  function Hex(n: nat): string {
    ToDigits(n, 16)
  }

  /** Python `format(n, "0<width>x")`: lowercase hex left-padded with zeros to at least `width` chars. */
  function HexPadded(n: nat, width: nat): (s: string)
    ensures |s| == if |Hex(n)| < width then width else |Hex(n)|
    ensures AllDigits(s, 16)
  {
    var h := Hex(n);
    var z := if |h| < width then width - |h| else 0;
    ValueOfZeroPadded(z, h, 16);
    Zeros(z) + h
  }

  /** A strict reader of lowercase hex text: the inverse the consumers of a rendered trace id apply. */
  function ParseHex(s: string): (r: Option<nat>)
    ensures r.Some? <==> |s| > 0 && AllDigits(s, 16)
  {
    if |s| > 0 && AllDigits(s, 16) then Some(ValueOf(s, 16)) else None
  }

  lemma ParseHexOfHex(n: nat)
    ensures ParseHex(Hex(n)) == Some(n)
  {
    ValueOfToDigits(n, 16);
  }

  lemma ParseHexOfHexPadded(n: nat, width: nat)
    ensures ParseHex(HexPadded(n, width)) == Some(n)
  {
    var h := Hex(n);
    var z := if |h| < width then width - |h| else 0;
    ValueOfZeroPadded(z, h, 16);
    ValueOfToDigits(n, 16);
  }

  /** Every 128-bit trace id renders as exactly 32 hex digits under `:032x`. */
  lemma HexPadded32(n: nat)
    requires n < Pow(16, 32)
    ensures |HexPadded(n, 32)| == 32
  {
    DigitsLengthBound(n, 16, 32);
  }

  // ---------------------------------------------------------------------------
  //  Python int(s) in base 10
  // ---------------------------------------------------------------------------

  /** Python's whitespace (`str.isspace()`), which `int()` ignores around a number: tab to
      carriage return, the separators 0x1C-0x1F, space, and the Unicode spaces and line
      separators. */
  predicate IsSpace(c: char) {
    var n := c as int;
    || 9 <= n <= 13 || 0x1C <= n <= 0x20 || n == 0x85 || n == 0xA0 || n == 0x1680
    || 0x2000 <= n <= 0x200A || n == 0x2028 || n == 0x2029 || n == 0x202F || n == 0x205F || n == 0x3000
  }

  function TrimStart(s: string): (r: string)
    ensures |r| <= |s|
  {
    if |s| > 0 && IsSpace(s[0]) then TrimStart(s[1..]) else s
  }

  function TrimEnd(s: string): (r: string)
    ensures |r| <= |s|
  {
    if |s| > 0 && IsSpace(s[|s| - 1]) then TrimEnd(s[..|s| - 1]) else s
  }

  function Strip(s: string): string {
    TrimEnd(TrimStart(s))
  }

  /** Digits with single underscores between them, as Python's int() accepts. */
  predicate WellGrouped(s: string) {
    && |s| > 0
    && IsDigit(s[0], 10)
    && IsDigit(s[|s| - 1], 10)
    && (forall i :: 0 <= i < |s| ==> IsDigit(s[i], 10) || s[i] == '_')
    && (forall i :: 0 <= i < |s| - 1 ==> s[i] == '_' ==> IsDigit(s[i + 1], 10))
  }

  function DropUnderscores(s: string): (r: string)
    requires forall i :: 0 <= i < |s| ==> IsDigit(s[i], 10) || s[i] == '_'
    ensures AllDigits(r, 10)
  {
    if |s| == 0 then ""
    else if s[0] == '_' then DropUnderscores(s[1..])
    else [s[0]] + DropUnderscores(s[1..])
  }

  function ParseUnsigned(s: string): Option<nat> {
    if WellGrouped(s) then Some(ValueOf(DropUnderscores(s), 10)) else None
  }

  /** Python `int(s)` for a str: surrounding whitespace, one optional sign, and digit
      groups joined by single underscores; anything else is a ValueError. */
  function PyInt(s: string): Result<int> {
    var t := Strip(s);
    if |t| > 0 && (t[0] == '+' || t[0] == '-') then
      match ParseUnsigned(t[1..])
      case Some(m) => Ok(if t[0] == '-' then 0 - m else m)
      case None => Err(ValueError)
    else
      match ParseUnsigned(t)
      case Some(m) => Ok(m)
      case None => Err(ValueError)
  }

  lemma DropUnderscoresOfDigits(s: string)
    requires AllDigits(s, 10)
    ensures DropUnderscores(s) == s
  {
    if |s| > 0 {
      DropUnderscoresOfDigits(s[1..]);
    }
  }

  lemma StripUnpadded(s: string)
    requires |s| > 0 && !IsSpace(s[0]) && !IsSpace(s[|s| - 1])
    ensures Strip(s) == s
  {
  }

  lemma ParseUnsignedOfDigits(s: string)
    requires |s| > 0 && AllDigits(s, 10)
    ensures ParseUnsigned(s) == Some(ValueOf(s, 10))
  {
    DropUnderscoresOfDigits(s);
  }

  /** `int(str(i)) == i`. */
  lemma PyIntOfIntStr(i: int)
    ensures PyInt(IntStr(i)) == Ok(i)
  {
    var n: nat := if i < 0 then -i else i;
    var d := ToDigits(n, 10);
    ValueOfToDigits(n, 10);
    ParseUnsignedOfDigits(d);
    assert ParseUnsigned(d) == Some(n);
    assert IsDigit(d[0], 10) && IsDigit(d[|d| - 1], 10);
    if i < 0 {
      var t := "-" + d;
      assert t == IntStr(i);
      StripUnpadded(t);
      assert t[0] == '-' && t[1..] == d;
      assert PyInt(t) == Ok(-(n as int));
    } else {
      assert d == IntStr(i);
      StripUnpadded(d);
      assert d[0] != '+' && d[0] != '-';
      assert PyInt(d) == Ok(n);
    }
  }

  /** A number written the way `str()` writes it. */
  predicate CanonicalInt(s: string) {
    Canonical(s, 10) || (|s| > 1 && s[0] == '-' && Canonical(s[1..], 10) && s[1..] != "0")
  }

  /** For canonically written numbers `str(int(s)) == s`. */
  lemma IntStrOfPyInt(s: string)
    requires CanonicalInt(s)
    ensures PyInt(s).Ok? && IntStr(PyInt(s).value) == s
  {
    assert IsDigit(s[|s| - 1], 10);
    StripUnpadded(s);
    if s[0] == '-' {
      var d := s[1..];
      ParseUnsignedOfDigits(d);
      var v: int := ValueOf(d, 10);
      assert PyInt(s) == Ok(-v);
      LeadingNonZero(d, 10);
      ToDigitsValueOf(d, 10);
      assert IntStr(-v) == "-" + d;
      assert "-" + d == s;
    } else {
      assert IsDigit(s[0], 10);
      ParseUnsignedOfDigits(s);
      assert PyInt(s) == Ok(ValueOf(s, 10));
      ToDigitsValueOf(s, 10);
    }
  }

}

=== FILE: otel_backend.dfy ===
/** The `/process` handler of the OpenTelemetry backend: the trace id of the current span,
    rendered as 32 zero-padded lowercase hex digits, tags both the latency metric and the
    log line. The span's trace id and the client address are inputs. */
module OtelBackend {
  import opened Wrappers
  import Numerals
  import opened Telemetry

  const Reply: string := "Processed data in Backend!"

  datatype Response = Response(effects: seq<Effect>, body: string)

  /** `f"{trace_id:032x}"` */
  function TraceTag(traceId: nat): string {
    Numerals.HexPadded(traceId, 32)
  }

  /** `process_request`: one metric, then one log line, then the fixed reply. */
  function ProcessRequest(traceId: nat, clientIp: string, duration: real): (r: Response)
    ensures r.body == Reply
    ensures Correlated(r.effects, TraceTag(traceId))
    ensures |r.effects| == 2 && r.effects[0].RecordMetric? && r.effects[0].duration == duration
    ensures r.effects[1] == EmitLog("Backend: Processing request from '" + clientIp + "' source", TraceTag(traceId))
  {
    var tag := TraceTag(traceId);
    var effects := [RecordMetric(tag, duration), EmitLog("Backend: Processing request from '" + clientIp + "' source", tag)];
    CorrelatedSequence(tag, duration, [], "Backend: Processing request from '" + clientIp + "' source");
    assert effects == [RecordMetric(tag, duration)] + [] + [effects[1]];
    Response(effects, Reply)
  }

  /** A 128-bit trace id is tagged with exactly 32 lowercase hex digits that read back as it. */
  lemma TraceTagShape(traceId: nat)
    requires traceId < Numerals.Pow(16, 32)
    ensures |TraceTag(traceId)| == 32
    ensures Numerals.AllDigits(TraceTag(traceId), 16)
    ensures Numerals.ParseHex(TraceTag(traceId)) == Some(traceId)
  {
    Numerals.HexPadded32(traceId);
    Numerals.ParseHexOfHexPadded(traceId, 32);
  }

  /** Different traces are never tagged alike, so metrics and logs of different requests
      cannot be confused. */
  lemma TraceTagInjective(a: nat, b: nat)
    requires TraceTag(a) == TraceTag(b)
    ensures a == b
  {
    Numerals.ParseHexOfHexPadded(a, 32);
    Numerals.ParseHexOfHexPadded(b, 32);
  }
}

=== FILE: pipeline_monitoring.dfy ===
/** `trigger_if_drift_task`: retrain when the smallest drift p-value is at or below the
    threshold. Its observable behaviour is the sequence of log records and the launch of
    the `train_best` flow, modelled as effects. */
module PipelineMonitoring {

  /** The default significance threshold of the task. */
  const DefaultPThreshold: real := 0.05

  datatype Effect =
    | LogStart
    | WarnDrift(minP: real)
    | LaunchTrainBest
    | WarnNoDrift(minP: real)

  predicate Retrains(effects: seq<Effect>) {
    LaunchTrainBest in effects
  }

  function CountLaunches(effects: seq<Effect>): nat {
    if |effects| == 0 then 0
    else (if effects[0] == LaunchTrainBest then 1 else 0) + CountLaunches(effects[1..])
  }

  function TriggerIfDrift(minP: real, threshold: real): (effects: seq<Effect>)
    ensures Retrains(effects) <==> minP <= threshold
    ensures Retrains(effects) <==> !(WarnNoDrift(minP) in effects)
    ensures effects[0] == LogStart
  {
    if minP <= threshold then [LogStart, WarnDrift(minP), LaunchTrainBest]
    else [LogStart, WarnNoDrift(minP)]
  }

  /** A p-value equal to the threshold counts as drift. */
  lemma TriggerAtThreshold(t: real)
    ensures Retrains(TriggerIfDrift(t, t))
  {
  }

  /** Raising the threshold never turns a retrain into a no-drift outcome. */
  lemma TriggerMonotone(minP: real, t: real, t': real)
    requires t <= t' && Retrains(TriggerIfDrift(minP, t))
    ensures Retrains(TriggerIfDrift(minP, t'))
  {
  }

  /** Each call either launches `train_best` exactly once or logs "no drift", never both. */
  lemma TriggerOneBranch(minP: real, threshold: real)
    ensures var e := TriggerIfDrift(minP, threshold);
      (CountLaunches(e) == 1 && WarnNoDrift(minP) !in e) || (CountLaunches(e) == 0 && WarnNoDrift(minP) in e)
  {
    var e := TriggerIfDrift(minP, threshold);
    if minP <= threshold {
      var tail := [LaunchTrainBest];
      assert CountLaunches(tail) == 1 by {
        assert tail[1..] == [];
      }
      assert e[1..] == [WarnDrift(minP)] + tail;
      assert e[1..][1..] == tail;
    } else {
      var tail := [WarnNoDrift(minP)];
      assert CountLaunches(tail) == 0 by {
        assert tail[1..] == [];
      }
      assert e[1..] == tail;
    }
  }
}

=== FILE: policy_ids.dfy ===
/** Policy-id extraction in `search_policies`: `sorted(set(ID_RE.findall(text)))` with
    `ID_RE = \b([A-Z]{3}-\d{3}(?:-[A-Z]+)?)\b`. The regular expression is modelled over
    ASCII text: `\d` is 0-9 and a word character is a letter, a digit or `_`. */
module PolicyIds {
  import opened Wrappers

  predicate IsUpper(c: char) {
    'A' <= c <= 'Z'
  }

  predicate IsDigitChar(c: char) {
    '0' <= c <= '9'
  }

  predicate IsWordChar(c: char) {
    IsUpper(c) || 'a' <= c <= 'z' || IsDigitChar(c) || c == '_'
  }

  /** `\b` at position `i`: exactly one of the characters on either side is a word character. */
  predicate Boundary(t: string, i: nat)
    requires i <= |t|
  {
    (i > 0 && IsWordChar(t[i - 1])) != (i < |t| && IsWordChar(t[i]))
  }

  /** The shape of a policy id: `AAA-999`, optionally followed by `-` and one or more capitals. */
  predicate IsPolicyId(s: string) {
    && |s| >= 7
    && IsUpper(s[0]) && IsUpper(s[1]) && IsUpper(s[2])
    && s[3] == '-'
    && IsDigitChar(s[4]) && IsDigitChar(s[5]) && IsDigitChar(s[6])
    && (|s| == 7 || (|s| >= 9 && s[7] == '-' && forall k :: 8 <= k < |s| ==> IsUpper(s[k])))
  }

  /** `t[i..i+m]` is a policy id with a word boundary on both sides. */
  predicate DelimitedIdAt(t: string, i: nat, m: nat) {
    i + m <= |t| && Boundary(t, i) && Boundary(t, i + m) && IsPolicyId(t[i..i + m])
  }

  /** `[A-Z]{3}-\d{3}` at position `i`. */
  predicate CoreAt(t: string, i: nat) {
    && i + 7 <= |t|
    && IsUpper(t[i]) && IsUpper(t[i + 1]) && IsUpper(t[i + 2])
    && t[i + 3] == '-'
    && IsDigitChar(t[i + 4]) && IsDigitChar(t[i + 5]) && IsDigitChar(t[i + 6])
  }

  /** Length of the longest run of capitals starting at `j` (what greedy `[A-Z]+` first takes). */
  function UpperRun(t: string, j: nat): (r: nat)
    requires j <= |t|
    ensures j + r <= |t|
    ensures forall k :: j <= k < j + r ==> IsUpper(t[k])
    ensures j + r == |t| || !IsUpper(t[j + r])
    decreases |t| - j
  {
    if j < |t| && IsUpper(t[j]) then 1 + UpperRun(t, j + 1) else 0
  }

  /** The regular expression tried at position `i`, as the backtracking matcher runs it: the
      optional `-[A-Z]+` group is tried first with its longest run of capitals (a shorter run
      ends between two capitals, where `\b` cannot hold), and only then is the group skipped.
      The result is the length of the match. */
  function MatchAt(t: string, i: nat): (r: Option<nat>)
    requires i <= |t|
    ensures r.Some? ==> 7 <= r.value && i + r.value <= |t|
  {
    if !(Boundary(t, i) && CoreAt(t, i)) then None
    else
      var j := i + 7;
      if j < |t| && t[j] == '-' && UpperRun(t, j + 1) > 0 && Boundary(t, j + 1 + UpperRun(t, j + 1)) then
        Some(8 + UpperRun(t, j + 1))
      else if Boundary(t, j) then Some(7)
      else None
  }

  /** A match found at `i` is a policy id delimited by word boundaries. */
  lemma MatchAtSound(t: string, i: nat)
    requires i <= |t| && MatchAt(t, i).Some?
    ensures MatchAt(t, i).value >= 7 && DelimitedIdAt(t, i, MatchAt(t, i).value)
  {
    var n := MatchAt(t, i).value;
    var s := t[i..i + n];
    assert forall k :: 0 <= k < n ==> s[k] == t[i + k];
  }

  /** A delimited policy id of length `m` at `i` made only of a core and a capital run
      consumes the whole run. */
  lemma LongIdUsesWholeRun(t: string, i: nat, m: nat)
    requires DelimitedIdAt(t, i, m) && m >= 9
    ensures t[i + 7] == '-' && UpperRun(t, i + 8) == m - 8
  {
    var s := t[i..i + m];
    assert forall k :: 0 <= k < m ==> s[k] == t[i + k];
    assert IsUpper(t[i + m - 1]);
    forall q | i + 8 <= q < i + m ensures IsUpper(t[q]) {
      assert t[q] == s[q - i];
    }
  }

  /** `MatchAt` is the longest delimited policy id at `i`: it succeeds exactly when some
      delimited id starts there, and no delimited id at `i` is longer than its match. */
  lemma {:induction false} MatchAtLongest(t: string, i: nat, m: nat)
    requires DelimitedIdAt(t, i, m)
    ensures MatchAt(t, i).Some? && m <= MatchAt(t, i).value
  {
    var s := t[i..i + m];
    assert forall k :: 0 <= k < 7 ==> s[k] == t[i + k];
    assert CoreAt(t, i);
    if m >= 9 {
      LongIdUsesWholeRun(t, i, m);
      assert MatchAt(t, i) == Some(m);
    }
  }

  /** A non-overlapping match `[lo, hi)` of the text. */
  datatype Span = Span(lo: nat, hi: nat)

  /** `r` lists matches found from position `i`: each a delimited policy id starting at or
      after the end of the one before, the first at or after `i`. */
  predicate OrderedMatches(t: string, i: nat, r: seq<Span>)
    decreases |r|
  {
    |r| == 0 ||
    (&& i <= r[0].lo < r[0].hi
     && DelimitedIdAt(t, r[0].lo, r[0].hi - r[0].lo)
     && OrderedMatches(t, r[0].hi, r[1..]))
  }

  /** `re.finditer` from position `i`: try every position in turn and resume after each match. */
  function Matches(t: string, i: nat): (r: seq<Span>)
    requires i <= |t|
    decreases |t| - i
  {
    if i == |t| then []
    else
      match MatchAt(t, i)
      case Some(n) => [Span(i, i + n)] + Matches(t, i + n)
      case None => Matches(t, i + 1)
  }

  /** The matches `finditer` reports from `i` are ordered, non-overlapping, delimited policy ids. */
  lemma {:induction false} MatchesOrdered(t: string, i: nat)
    requires i <= |t|
    ensures OrderedMatches(t, i, Matches(t, i))
    decreases |t| - i
  {
    if i < |t| {
      var m := MatchAt(t, i);
      if m.Some? {
        var n := m.value;
        MatchAtSound(t, i);
        MatchesOrdered(t, i + n);
        OrderedMatchesCons(t, i, n, Matches(t, i + n));
      } else {
        MatchesOrdered(t, i + 1);
        OrderedMatchesEarlier(t, i, Matches(t, i + 1));
      }
    }
  }

  /** A delimited id at `i` followed by ordered matches from its end gives ordered matches from `i`. */
  lemma OrderedMatchesCons(t: string, i: nat, n: nat, rest: seq<Span>)
    requires 0 < n && DelimitedIdAt(t, i, n) && OrderedMatches(t, i + n, rest)
    ensures OrderedMatches(t, i, [Span(i, i + n)] + rest)
  {
    var r := [Span(i, i + n)] + rest;
    assert r[0] == Span(i, i + n) && r[1..] == rest;
  }

  /** Matches ordered from `i + 1` are ordered from `i` as well. */
  lemma OrderedMatchesEarlier(t: string, i: nat, r: seq<Span>)
    requires OrderedMatches(t, i + 1, r)
    ensures OrderedMatches(t, i, r)
  {
  }

  /** Each match found is the regular expression's match at its start: `finditer` takes the
      match `MatchAt` gives there, whole. */
  lemma {:induction false} MatchesExact(t: string, i: nat)
    requires i <= |t|
    ensures forall k :: 0 <= k < |Matches(t, i)| ==>
      && Matches(t, i)[k].lo <= |t|
      && MatchAt(t, Matches(t, i)[k].lo).Some?
      && Matches(t, i)[k].hi == Matches(t, i)[k].lo + MatchAt(t, Matches(t, i)[k].lo).value
    decreases |t| - i
  {
    if i < |t| {
      var m := MatchAt(t, i);
      if m.Some? {
        var n := m.value;
        var rest := Matches(t, i + n);
        MatchesExact(t, i + n);
        var r := Matches(t, i);
        assert r == [Span(i, i + n)] + rest;
        forall k | 0 <= k < |r|
          ensures r[k].lo <= |t| && MatchAt(t, r[k].lo).Some? && r[k].hi == r[k].lo + MatchAt(t, r[k].lo).value
        {
          if k > 0 {
            assert r[k] == rest[k - 1];
          }
        }
      } else {
        MatchesExact(t, i + 1);
        assert Matches(t, i) == Matches(t, i + 1);
      }
    }
  }

  /** No match is skipped: every position from `i` on where the regular expression matches
      starts a match found or lies inside one. */
  lemma {:induction false} MatchesComplete(t: string, i: nat, p: nat)
    requires i <= p < |t| && MatchAt(t, p).Some?
    ensures exists k :: 0 <= k < |Matches(t, i)| && Matches(t, i)[k].lo <= p < Matches(t, i)[k].hi
    decreases |t| - i
  {
    var m := MatchAt(t, i);
    var r := Matches(t, i);
    if m.Some? {
      var n := m.value;
      var rest := Matches(t, i + n);
      assert r == [Span(i, i + n)] + rest;
      if p < i + n {
        assert 0 < |r| && r[0].lo <= p < r[0].hi;
      } else {
        MatchesComplete(t, i + n, p);
        var k :| 0 <= k < |rest| && rest[k].lo <= p < rest[k].hi;
        assert r[k + 1] == rest[k];
      }
    } else {
      MatchesComplete(t, i + 1, p);
      assert r == Matches(t, i + 1);
    }
  }

  /** Position `p` lies strictly inside a match of the text that starts before it. */
  ghost predicate InsideMatch(t: string, p: nat) {
    exists k :: 0 <= k < |Matches(t, 0)| && Matches(t, 0)[k].lo < p < Matches(t, 0)[k].hi
  }

  /** Where the regular expression matches outside every earlier match, `finditer` reports
      that match. */
  lemma MatchFoundAt(t: string, p: nat)
    requires p < |t| && MatchAt(t, p).Some? && !InsideMatch(t, p)
    ensures exists k :: 0 <= k < |Matches(t, 0)| && Matches(t, 0)[k] == Span(p, p + MatchAt(t, p).value)
  {
    MatchesComplete(t, 0, p);
    MatchesExact(t, 0);
    var k :| 0 <= k < |Matches(t, 0)| && Matches(t, 0)[k].lo <= p < Matches(t, 0)[k].hi;
    assert Matches(t, 0)[k].lo == p;
  }

  /** Ordered matches lie inside the text, are delimited policy ids and do not overlap. */
  lemma {:induction false} OrderedMatchesSpans(t: string, i: nat, r: seq<Span>)
    requires OrderedMatches(t, i, r)
    ensures forall k :: 0 <= k < |r| ==> i <= r[k].lo < r[k].hi <= |t|
    ensures forall k :: 0 <= k < |r| ==> DelimitedIdAt(t, r[k].lo, r[k].hi - r[k].lo)
    ensures forall k :: 0 <= k && k + 1 < |r| ==> r[k].hi <= r[k + 1].lo
    decreases |r|
  {
    if |r| > 0 {
      var rest := r[1..];
      OrderedMatchesSpans(t, r[0].hi, rest);
      forall k | 1 <= k < |r| ensures r[k] == rest[k - 1] {
      }
    }
  }

  /** `ID_RE.findall(text)`: the group equals the whole match, so the matched texts. */
  function FindAll(t: string): (r: seq<string>)
    ensures forall k :: 0 <= k < |r| ==> IsPolicyId(r[k])
  {
    MatchesSpans(t);
    SpanTexts(t, Matches(t, 0))
  }

  /** The matches from the start of the text lie inside it, are delimited policy ids and do
      not overlap. */
  lemma MatchesSpans(t: string)
    ensures forall k :: 0 <= k < |Matches(t, 0)| ==> Matches(t, 0)[k].lo < Matches(t, 0)[k].hi <= |t|
    ensures forall k :: 0 <= k < |Matches(t, 0)| ==>
      DelimitedIdAt(t, Matches(t, 0)[k].lo, Matches(t, 0)[k].hi - Matches(t, 0)[k].lo)
    ensures forall k :: 0 <= k && k + 1 < |Matches(t, 0)| ==> Matches(t, 0)[k].hi <= Matches(t, 0)[k + 1].lo
  {
    MatchesOrdered(t, 0);
    OrderedMatchesSpans(t, 0, Matches(t, 0));
  }

  /** The text each span covers, in order. */
  function SpanTexts(t: string, spans: seq<Span>): (r: seq<string>)
    requires forall k :: 0 <= k < |spans| ==> spans[k].lo <= spans[k].hi <= |t|
    ensures |r| == |spans|
    ensures forall k :: 0 <= k < |spans| ==> r[k] == t[spans[k].lo..spans[k].hi] && |r[k]| == spans[k].hi - spans[k].lo
  {
    seq(|spans|, k requires 0 <= k < |spans| => t[spans[k].lo..spans[k].hi])
  }

  /** Every id `findall` reports occurs in the text, in order, between word boundaries. */
  lemma FindAllOccurs(t: string)
    ensures var spans := Matches(t, 0);
      |FindAll(t)| == |spans|
      && forall k :: 0 <= k < |spans| ==>
           && spans[k].lo < spans[k].hi <= |t|
           && FindAll(t)[k] == t[spans[k].lo..spans[k].hi]
           && DelimitedIdAt(t, spans[k].lo, |FindAll(t)[k]|)
           && (k + 1 < |spans| ==> spans[k].hi <= spans[k + 1].lo)
  {
    MatchesSpans(t);
    assert FindAll(t) == SpanTexts(t, Matches(t, 0));
  }


  /** Round trip: a well-formed id on its own is found exactly once, whole. */
  lemma FindAllOfId(p: string)
    requires IsPolicyId(p)
    ensures FindAll(p) == [p]
  {
    assert IsWordChar(p[|p| - 1]);
    assert p[0..|p|] == p;
    assert DelimitedIdAt(p, 0, |p|);
    MatchAtLongest(p, 0, |p|);
    assert MatchAt(p, 0) == Some(|p|);
    assert Matches(p, 0) == [Span(0, |p|)];
  }

  /** `findall` misses no id: a delimited policy id at `p` that is not inside an earlier match
      is found, extended to the longest delimited id starting there. */
  lemma FindAllComplete(t: string, p: nat, m: nat)
    requires DelimitedIdAt(t, p, m) && !InsideMatch(t, p)
    ensures MatchAt(t, p).Some? && m <= MatchAt(t, p).value
    ensures DelimitedIdAt(t, p, MatchAt(t, p).value)
    ensures t[p..p + MatchAt(t, p).value] in FindAll(t)
  {
    MatchAtLongest(t, p, m);
    MatchAtSound(t, p);
    MatchFoundAt(t, p);
    var spans := Matches(t, 0);
    var k :| 0 <= k < |spans| && spans[k] == Span(p, p + MatchAt(t, p).value);
    assert FindAll(t)[k] == t[p..p + MatchAt(t, p).value];
  }

  // ---------------------------------------------------------------------------
  //  sorted(set(...)) over Python's string order
  // ---------------------------------------------------------------------------

  /** Python's `<` on `str`: lexicographic by code point, a proper prefix first. */
  predicate Less(a: string, b: string)
    decreases |a|
  {
    if |a| == 0 then |b| > 0
    else |b| > 0 && (a[0] < b[0] || (a[0] == b[0] && Less(a[1..], b[1..])))
  }

  lemma {:induction false} LessIrreflexive(a: string)
    ensures !Less(a, a)
    decreases |a|
  {
    if |a| > 0 {
      LessIrreflexive(a[1..]);
    }
  }

  lemma {:induction false} LessTransitive(a: string, b: string, c: string)
    requires Less(a, b) && Less(b, c)
    ensures Less(a, c)
    decreases |a|
  {
    if |a| > 0 && a[0] == b[0] && b[0] == c[0] {
      LessTransitive(a[1..], b[1..], c[1..]);
    }
  }

  lemma {:induction false} LessTotal(a: string, b: string)
    ensures a == b || Less(a, b) || Less(b, a)
    decreases |a|
  {
    if |a| > 0 && |b| > 0 && a[0] == b[0] {
      LessTotal(a[1..], b[1..]);
      if a[1..] == b[1..] {
        assert a == [a[0]] + a[1..] && b == [b[0]] + b[1..];
      }
    }
  }

  lemma LessAsymmetric(a: string, b: string)
    requires Less(a, b)
    ensures !Less(b, a)
  {
    if Less(b, a) {
      LessTransitive(a, b, a);
      LessIrreflexive(a);
    }
  }

  predicate StrictlySorted(xs: seq<string>) {
    forall i, j :: 0 <= i < j < |xs| ==> Less(xs[i], xs[j])
  }

  /** Inserts `x` into a strictly sorted list unless it is already there. */
  function Insert(x: string, xs: seq<string>): (r: seq<string>)
    requires StrictlySorted(xs)
    ensures StrictlySorted(r)
    ensures forall z :: z in r <==> z == x || z in xs
    decreases |xs|
  {
    if |xs| == 0 then [x]
    else if x == xs[0] then xs
    else if Less(x, xs[0]) then
      assert forall j :: 0 < j < |xs| ==> Less(x, xs[j]) by {
        forall j | 0 < j < |xs| ensures Less(x, xs[j]) {
          LessTransitive(x, xs[0], xs[j]);
        }
      }
      [x] + xs
    else
      var rest := Insert(x, xs[1..]);
      LessTotal(x, xs[0]);
      assert forall z :: z in rest ==> Less(xs[0], z);
      [xs[0]] + rest
  }

  /** `sorted(set(xs))` */
  function SortedSet(xs: seq<string>): (r: seq<string>)
    ensures StrictlySorted(r)
    ensures forall z :: z in r <==> z in xs
    decreases |xs|
  {
    if |xs| == 0 then [] else Insert(xs[0], SortedSet(xs[1..]))
  }

  /** A strictly sorted list is determined by its elements, so `SortedSet` is the one sorted,
      duplicate-free listing of the ids found. */
  lemma {:induction false} SortedUnique(a: seq<string>, b: seq<string>)
    requires StrictlySorted(a) && StrictlySorted(b)
    requires forall z :: z in a <==> z in b
    ensures a == b
    decreases |a|
  {
    if |a| > 0 {
      assert a[0] in b;
    }
    if |b| > 0 {
      assert b[0] in a;
    }
    if |a| > 0 && |b| > 0 {
      if a[0] != b[0] {
        assert a[0] in b && b[0] in a;
        var k :| 0 <= k < |b| && b[k] == a[0];
        var k' :| 0 <= k' < |a| && a[k'] == b[0];
        LessAsymmetric(b[0], a[0]);
        assert false;
      }
      forall z ensures z in a[1..] <==> z in b[1..] {
        if z in a[1..] {
          var i :| 0 <= i < |a[1..]| && a[1..][i] == z;
          assert Less(a[0], a[i + 1]);
          LessIrreflexive(a[0]);
          assert z in b;
          var j :| 0 <= j < |b| && b[j] == z;
          assert j != 0;
          assert b[1..][j - 1] == z;
        }
        if z in b[1..] {
          var i :| 0 <= i < |b[1..]| && b[1..][i] == z;
          assert Less(b[0], b[i + 1]);
          LessIrreflexive(b[0]);
          assert z in a;
          var j :| 0 <= j < |a| && a[j] == z;
          assert j != 0;
          assert a[1..][j - 1] == z;
        }
      }
      SortedUnique(a[1..], b[1..]);
      assert a == [a[0]] + a[1..] && b == [b[0]] + b[1..];
    }
  }

  /** The `ids` of a hit: the distinct ids found, in increasing order. */
  function PolicyIdsIn(text: string): (r: seq<string>)
    ensures StrictlySorted(r)
    ensures forall z :: z in r <==> z in FindAll(text)
    ensures forall k :: 0 <= k < |r| ==> IsPolicyId(r[k])
  {
    var r := SortedSet(FindAll(text));
    forall k | 0 <= k < |r| ensures IsPolicyId(r[k]) {
      assert r[k] in FindAll(text);
    }
    r
  }

  /** The ids of a hit miss none of the text's: every delimited policy id not inside an earlier
      match is listed, as the longest delimited id at its position. */
  lemma PolicyIdsComplete(t: string, p: nat, m: nat)
    requires DelimitedIdAt(t, p, m) && !InsideMatch(t, p)
    ensures MatchAt(t, p).Some? && m <= MatchAt(t, p).value
    ensures t[p..p + MatchAt(t, p).value] in PolicyIdsIn(t)
  {
    FindAllComplete(t, p, m);
  }
}

=== FILE: rag_core.dfy ===
/** The deterministic bookkeeping of the RAG pipeline: fixed-window chunking and
    index records built by `ingest`, hit snippets built by `retrieve`, the
    numbered source listing of `_format_sources`, and the empty-context and
    unparseable-reply branches of `generate`. The vector store, the embedding
    model and the chat model are inputs. */
module RagCore {
  import opened Wrappers
  import opened Strings
  import Numerals

  const ChunkSize: nat := 2000
  const Stride: nat := 1600
  const SnippetLength: nat := 400
  const Ellipsis: string := "..."
  const NoDocumentsAnswer: string := "No documents found in the knowledge base."

  // ---------------------------------------------------------------------------
  //  Chunking
  // ---------------------------------------------------------------------------

  /** How many starts 0, 1600, 3200, ... lie below `n`: ceil(n / 1600). */
  function ChunkCount(n: nat): nat {
    (n + Stride - 1) / Stride
  }

  lemma ChunkCountBounds(n: nat, k: nat)
    ensures k < ChunkCount(n) <==> k * Stride < n
  {
  }

  /** `[text[i:i + 2000] for i in range(0, len(text), 1600)]` */
  function Chunks(text: string): (r: seq<string>)
    ensures |r| == ChunkCount(|text|)
  {
    seq(ChunkCount(|text|), k requires 0 <= k < ChunkCount(|text|) => Slice(text, k * Stride, k * Stride + ChunkSize))
  }

  /** Chunk `k` starts at offset 1600·k and runs for min(2000, |text| − 1600·k) characters,
      so it is never empty and never longer than 2000. */
  lemma ChunkShape(text: string, k: nat)
    requires k < |Chunks(text)|
    ensures k * Stride < |text|
    ensures |Chunks(text)[k]| == Min(ChunkSize, |text| - k * Stride)
    ensures 0 < |Chunks(text)[k]| <= ChunkSize
    ensures Chunks(text)[k] == text[k * Stride..k * Stride + |Chunks(text)[k]|]
  {
    ChunkCountBounds(|text|, k);
  }

  /** Every start below |text| begins a chunk, so no text is skipped; an empty file has no chunks. */
  lemma ChunkCoverage(text: string)
    ensures |Chunks(text)| == 0 <==> |text| == 0
    ensures forall k: nat :: k * Stride < |text| <==> k < |Chunks(text)|
  {
    forall k: nat ensures k * Stride < |text| <==> k < |Chunks(text)| {
      ChunkCountBounds(|text|, k);
    }
  }

  /** Consecutive chunks overlap by 400 characters: what chunk k holds past offset
      1600 is exactly the start of chunk k + 1. */
  lemma ChunkOverlap(text: string, k: nat)
    requires k + 1 < |Chunks(text)|
    ensures |Chunks(text)[k]| > Stride
    ensures |Chunks(text)[k]| - Stride <= |Chunks(text)[k + 1]|
    ensures Chunks(text)[k][Stride..] == Chunks(text)[k + 1][..|Chunks(text)[k]| - Stride]
  {
    ChunkShape(text, k);
    ChunkShape(text, k + 1);
    var a := k * Stride;
    var c := Chunks(text);
    assert c[k] == text[a..a + |c[k]|];
    assert c[k + 1] == text[a + Stride..a + Stride + |c[k + 1]|];
    assert c[k][Stride..] == text[a + Stride..a + |c[k]|];
  }

  /** Stitching the chunks back, keeping only the first 1600 characters of all but the last. */
  function Stitch(chunks: seq<string>): string
    decreases |chunks|
  {
    if |chunks| == 0 then ""
    else if |chunks| == 1 then chunks[0]
    else Slice(chunks[0], 0, Stride) + Stitch(chunks[1..])
  }

  lemma ChunksShift(text: string)
    requires |text| > Stride
    ensures Chunks(text)[1..] == Chunks(text[Stride..])
  {
    var c := Chunks(text);
    var d := Chunks(text[Stride..]);
    assert |c[1..]| == |d|;
    forall k | 0 <= k < |d| ensures c[1..][k] == d[k] {
      ChunkShape(text, k + 1);
      ChunkShape(text[Stride..], k);
      assert text[Stride..][k * Stride..k * Stride + |d[k]|] == text[(k + 1) * Stride..(k + 1) * Stride + |d[k]|];
    }
  }

  /** The chunks cover the text exactly: stitching them back gives the file contents. */
  lemma {:induction false} StitchChunks(text: string)
    ensures Stitch(Chunks(text)) == text
    decreases |text|
  {
    var c := Chunks(text);
    if |text| == 0 {
    } else if |text| <= Stride {
      ChunkShape(text, 0);
      assert |c| == 1;
      assert c[0] == text;
    } else {
      ChunksShift(text);
      StitchChunks(text[Stride..]);
      ChunkShape(text, 0);
      assert |c| > 1;
      assert Slice(c[0], 0, Stride) == text[..Stride];
      assert text[..Stride] + text[Stride..] == text;
    }
  }

  // ---------------------------------------------------------------------------
  //  Ingestion
  // ---------------------------------------------------------------------------

  /** One path yielded by the recursive directory walk. */
  datatype Entry = File(path: string, text: string) | Directory(path: string)

  /** Chunk metadata stored beside each document. */
  datatype Meta = Meta(source: string, chunk: int)

  /** The three parallel lists handed to the collection, and the file counter. */
  datatype Batch = Batch(docs: seq<string>, ids: seq<string>, metas: seq<Meta>, filesIndexed: nat)

  /** `p.suffix.lower() in {".md", ".txt"}` */
  predicate Eligible(path: string) {
    Lower(Suffix(path)) in {".md", ".txt"}
  }

  function NatStr(n: nat): string {
    Numerals.ToDigits(n, 10)
  }

  /** `f"{p.stem}-{files_indexed}-{k}"` */
  function ChunkId(path: string, fileNo: nat, k: nat): string {
    Stem(path) + "-" + NatStr(fileNo) + "-" + NatStr(k)
  }

  function FileIds(path: string, fileNo: nat, n: nat): (r: seq<string>)
    ensures |r| == n && forall k :: 0 <= k < n ==> r[k] == ChunkId(path, fileNo, k)
  {
    seq(n, k requires 0 <= k < n => ChunkId(path, fileNo, k))
  }

  function FileMetas(path: string, n: nat): (r: seq<Meta>)
    ensures |r| == n && forall k :: 0 <= k < n ==> r[k] == Meta(path, k)
  {
    seq(n, k requires 0 <= k < n => Meta(path, k))
  }

  /** Entries with an indexable suffix. */
  function CountEligible(entries: seq<Entry>): nat {
    if |entries| == 0 then 0
    else (if Eligible(entries[0].path) then 1 else 0) + CountEligible(entries[1..])
  }

  /** Sum of ceil(|text| / 1600) over the indexable files. */
  function TotalChunks(entries: seq<Entry>): nat {
    if |entries| == 0 then 0
    else
      var here := if Eligible(entries[0].path) && entries[0].File? then ChunkCount(|entries[0].text|) else 0;
      here + TotalChunks(entries[1..])
  }

  /** No indexable suffix names a directory (reading one raises IsADirectoryError). */
  predicate Readable(entries: seq<Entry>) {
    forall i :: 0 <= i < |entries| && Eligible(entries[i].path) ==> entries[i].File?
  }

  lemma ReadableCons(entries: seq<Entry>)
    requires |entries| > 0
    ensures Readable(entries) <==> (Eligible(entries[0].path) ==> entries[0].File?) && Readable(entries[1..])
  {
    assert forall i :: 1 <= i < |entries| ==> entries[i] == entries[1..][i - 1];
  }

  /** The loop of `ingest` from the given entry onwards, with `fileNo` files already indexed. */
  function IngestFrom(entries: seq<Entry>, fileNo: nat): (r: Result<Batch>)
    ensures r.Ok? <==> Readable(entries)
    ensures r.Err? ==> r.error == IsADirectoryError
    ensures r.Ok? ==> |r.value.docs| == |r.value.ids| == |r.value.metas| == TotalChunks(entries)
    ensures r.Ok? ==> r.value.filesIndexed == fileNo + CountEligible(entries)
    decreases |entries|
  {
    if |entries| == 0 then Ok(Batch([], [], [], fileNo))
    else
      var e := entries[0];
      ReadableCons(entries);
      if !Eligible(e.path) then IngestFrom(entries[1..], fileNo)
      else
        match e
        case Directory(_) => Err(IsADirectoryError)
        case File(p, text) =>
          var rest :- IngestFrom(entries[1..], fileNo + 1);
          var ch := Chunks(text);
          Ok(Batch(ch + rest.docs, FileIds(p, fileNo, |ch|) + rest.ids,
                   FileMetas(p, |ch|) + rest.metas, rest.filesIndexed))
  }

  /** What `ingest` returns (`indexed_files`, `chunks`) and what it passes to `col.add`. */
  datatype Ingestion = Ingestion(indexedFiles: nat, chunks: nat, added: Option<Batch>)

  function Ingest(entries: seq<Entry>): (r: Result<Ingestion>)
    ensures r.Ok? <==> Readable(entries)
    ensures r.Ok? ==> r.value.indexedFiles == CountEligible(entries)
    ensures r.Ok? ==> r.value.chunks == TotalChunks(entries)
    ensures r.Ok? ==> (r.value.added.Some? <==> r.value.chunks > 0)
    ensures r.Ok? && r.value.added.Some? ==>
      var b := r.value.added.value;
      |b.docs| == |b.ids| == |b.metas| == r.value.chunks
  {
    var b :- IngestFrom(entries, 0);
    Ok(Ingestion(b.filesIndexed, |b.docs|, if |b.docs| > 0 then Some(b) else None))
  }

  /** Document `j` of a batch is chunk `metas[j].chunk` of the indexable file `metas[j].source`
      found at some position of `entries`. */
  predicate DocFromEntry(entries: seq<Entry>, b: Batch, j: nat)
    requires j < |b.docs| && j < |b.metas|
  {
    exists i :: 0 <= i < |entries| && DocFromFile(entries[i], b, j)
  }

  predicate DocFromFile(e: Entry, b: Batch, j: nat)
    requires j < |b.docs| && j < |b.metas|
  {
    && e.File? && Eligible(e.path)
    && e.path == b.metas[j].source
    && 0 <= b.metas[j].chunk < |Chunks(e.text)|
    && b.docs[j] == Chunks(e.text)[b.metas[j].chunk]
  }

  /** Every stored document is the chunk its metadata names: chunk `chunk` of the file at `source`. */
  lemma {:induction false} IngestDocsMatchMetas(entries: seq<Entry>, fileNo: nat)
    requires IngestFrom(entries, fileNo).Ok?
    ensures var b := IngestFrom(entries, fileNo).value;
      forall j :: 0 <= j < |b.docs| ==> DocFromEntry(entries, b, j)
    decreases |entries|
  {
    if |entries| > 0 {
      var b := IngestFrom(entries, fileNo).value;
      var e := entries[0];
      if !Eligible(e.path) {
        assert IngestFrom(entries, fileNo) == IngestFrom(entries[1..], fileNo);
        IngestDocsMatchMetas(entries[1..], fileNo);
        DocsFromLaterEntries(entries, b);
      } else {
        var rest := IngestFrom(entries[1..], fileNo + 1).value;
        IngestDocsMatchMetas(entries[1..], fileNo + 1);
        FileDocsBefore(entries, b, rest);
      }
    }
  }

  /** What `col.add` receives: document `j` is chunk `metas[j]["chunk"]` of the indexable
      file `metas[j]["source"]`, and its id names that file's position and that chunk. */
  lemma IngestAddsChunks(entries: seq<Entry>)
    requires Readable(entries)
    ensures Ingest(entries).value.added.Some? ==>
      var b := Ingest(entries).value.added.value;
      forall j :: 0 <= j < |b.docs| ==>
        && DocFromEntry(entries, b, j)
        && ParseChunkId(b.ids[j]).Some? && ParseChunkId(b.ids[j]).value.1 == b.metas[j].chunk
  {
    IngestDocsMatchMetas(entries, 0);
    IngestIdChunks(entries, 0);
  }

  /** Documents that come from the later entries come from the entries. */
  lemma DocsFromLaterEntries(entries: seq<Entry>, b: Batch)
    requires |entries| > 0 && |b.docs| <= |b.metas|
    requires forall j :: 0 <= j < |b.docs| ==> DocFromEntry(entries[1..], b, j)
    ensures forall j :: 0 <= j < |b.docs| ==> DocFromEntry(entries, b, j)
  {
    forall j | 0 <= j < |b.docs| ensures DocFromEntry(entries, b, j) {
      DocFromLaterEntry(entries, b, j);
    }
  }

  lemma DocFromLaterEntry(entries: seq<Entry>, b: Batch, j: nat)
    requires |entries| > 0 && j < |b.docs| && j < |b.metas|
    requires DocFromEntry(entries[1..], b, j)
    ensures DocFromEntry(entries, b, j)
  {
    var i' :| 0 <= i' < |entries[1..]| && DocFromFile(entries[1..][i'], b, j);
    assert entries[1..][i'] == entries[i' + 1];
  }

  /** The chunks of the first file followed by documents of the later entries all come from
      the entries. */
  lemma FileDocsBefore(entries: seq<Entry>, b: Batch, rest: Batch)
    requires |entries| > 0 && entries[0].File? && Eligible(entries[0].path)
    requires |rest.docs| == |rest.metas|
    requires b.docs == Chunks(entries[0].text) + rest.docs
    requires b.metas == FileMetas(entries[0].path, |Chunks(entries[0].text)|) + rest.metas
    requires forall j :: 0 <= j < |rest.docs| ==> DocFromEntry(entries[1..], rest, j)
    ensures forall j :: 0 <= j < |b.docs| ==> DocFromEntry(entries, b, j)
  {
    var e := entries[0];
    var n := |Chunks(e.text)|;
    forall j | 0 <= j < |b.docs| ensures DocFromEntry(entries, b, j) {
      if j < n {
        assert b.metas[j] == Meta(e.path, j);
        assert b.docs[j] == Chunks(e.text)[j];
        assert DocFromFile(entries[0], b, j);
      } else {
        assert b.metas[j] == rest.metas[j - n];
        assert b.docs[j] == rest.docs[j - n];
        LaterDoc(entries, b, rest, j, n);
      }
    }
  }

  lemma LaterDoc(entries: seq<Entry>, b: Batch, rest: Batch, j: nat, n: nat)
    requires |entries| > 0 && n <= j < |b.docs| && j < |b.metas|
    requires j - n < |rest.docs| && j - n < |rest.metas|
    requires b.metas[j] == rest.metas[j - n] && b.docs[j] == rest.docs[j - n]
    requires DocFromEntry(entries[1..], rest, j - n)
    ensures DocFromEntry(entries, b, j)
  {
    var i' :| 0 <= i' < |entries[1..]| && DocFromFile(entries[1..][i'], rest, j - n);
    assert DocFromFile(entries[i' + 1], b, j);
  }

  // ---------------------------------------------------------------------------
  //  Chunk ids are unique
  // ---------------------------------------------------------------------------

  /** `s` cut at its last `-`: the text before it and the text after it. */
  function LastField(s: string): (r: Option<(string, string)>)
    ensures r.Some? ==> '-' !in r.value.1 && s == r.value.0 + ['-'] + r.value.1
    ensures r.None? ==> '-' !in s
  {
    match LastIndexOf(s, '-')
    case None => None
    case Some(i) =>
      assert s == s[..i] + ['-'] + s[i + 1..];
      Some((s[..i], s[i + 1..]))
  }

  /** The last field is the one after the last dash, whatever precedes it. */
  lemma LastFieldOf(a: string, k: string)
    requires '-' !in k
    ensures LastField(a + ['-'] + k) == Some((a, k))
  {
    var s := a + ['-'] + k;
    LastIndexOfBeforeTail(a, '-', k);
    assert s[..|a|] == a;
    assert s[|a| + 1..] == k;
  }

  /** Reads (file number, chunk number) back from the two trailing `-`-separated fields of an id. */
  function ParseChunkId(id: string): Option<(nat, nat)> {
    match LastField(id)
    case None => None
    case Some((head, kPart)) =>
      match LastField(head)
      case None => None
      case Some((_, fPart)) =>
        if Numerals.Canonical(kPart, 10) && Numerals.Canonical(fPart, 10) then
          Some((Numerals.ValueOf(fPart, 10), Numerals.ValueOf(kPart, 10)))
        else None
  }

  lemma NoDashInDigits(n: nat)
    ensures '-' !in NatStr(n)
  {
    var s := NatStr(n);
    assert forall i :: 0 <= i < |s| ==> s[i] != '-' by {
      forall i | 0 <= i < |s| ensures s[i] != '-' {
        assert Numerals.IsDigit(s[i], 10);
      }
    }
  }

  /** Two trailing dash-free numerals are read back whatever precedes them. */
  lemma ParseChunkIdOfParts(stem: string, f: string, k: string)
    requires Numerals.Canonical(f, 10) && Numerals.Canonical(k, 10)
    requires '-' !in f && '-' !in k
    ensures ParseChunkId(stem + "-" + f + "-" + k) == Some((Numerals.ValueOf(f, 10), Numerals.ValueOf(k, 10)))
  {
    LastFieldOf(stem + "-" + f, k);
    LastFieldOf(stem, f);
  }

  /** The file and chunk numbers can be read back from every chunk id, whatever the file stem. */
  lemma ParseChunkIdOfChunkId(path: string, fileNo: nat, k: nat)
    ensures ParseChunkId(ChunkId(path, fileNo, k)) == Some((fileNo, k))
  {
    NoDashInDigits(k);
    NoDashInDigits(fileNo);
    ParseChunkIdOfParts(Stem(path), NatStr(fileNo), NatStr(k));
    Numerals.ValueOfToDigits(k, 10);
    Numerals.ValueOfToDigits(fileNo, 10);
  }

  predicate KeyLess(a: (nat, nat), b: (nat, nat)) {
    a.0 < b.0 || (a.0 == b.0 && a.1 < b.1)
  }

  /** Every id carries a (file number, chunk number) key, with file numbers from `fileNo` on,
      and the keys strictly increase along the list. */
  predicate KeysFrom(ids: seq<string>, fileNo: nat) {
    && (forall j :: 0 <= j < |ids| ==> ParseChunkId(ids[j]).Some? && ParseChunkId(ids[j]).value.0 >= fileNo)
    && (forall j1, j2 :: 0 <= j1 < j2 < |ids| ==> KeyLess(ParseChunkId(ids[j1]).value, ParseChunkId(ids[j2]).value))
  }

  /** Ids carry (file number, chunk number) keys that strictly increase along the batch. */
  lemma {:induction false} IngestIdKeys(entries: seq<Entry>, fileNo: nat)
    requires IngestFrom(entries, fileNo).Ok?
    ensures KeysFrom(IngestFrom(entries, fileNo).value.ids, fileNo)
    decreases |entries|
  {
    if |entries| > 0 {
      if !Eligible(entries[0].path) {
        assert IngestFrom(entries, fileNo) == IngestFrom(entries[1..], fileNo);
        IngestIdKeys(entries[1..], fileNo);
      } else {
        IngestIdKeys(entries[1..], fileNo + 1);
        IngestEligibleIdKeys(entries, fileNo);
      }
    }
  }

  /** An indexable first file puts its own ids, numbered `fileNo`, before the rest's. */
  lemma IngestEligibleIdKeys(entries: seq<Entry>, fileNo: nat)
    requires |entries| > 0 && Eligible(entries[0].path) && IngestFrom(entries, fileNo).Ok?
    requires IngestFrom(entries[1..], fileNo + 1).Ok?
    requires KeysFrom(IngestFrom(entries[1..], fileNo + 1).value.ids, fileNo + 1)
    ensures KeysFrom(IngestFrom(entries, fileNo).value.ids, fileNo)
  {
    var e := entries[0];
    var rest := IngestFrom(entries[1..], fileNo + 1).value.ids;
    var n := |Chunks(e.text)|;
    assert IngestFrom(entries, fileNo).value.ids == FileIds(e.path, fileNo, n) + rest;
    FileIdsBeforeKeys(e.path, fileNo, n, rest);
  }

  /** The chunk number an id carries is the `chunk` of the metadata stored beside it. */
  lemma {:induction false} IngestIdChunks(entries: seq<Entry>, fileNo: nat)
    requires IngestFrom(entries, fileNo).Ok?
    ensures var b := IngestFrom(entries, fileNo).value;
      forall j :: 0 <= j < |b.ids| ==> ParseChunkId(b.ids[j]).Some? && ParseChunkId(b.ids[j]).value.1 == b.metas[j].chunk
    decreases |entries|
  {
    if |entries| > 0 {
      var e := entries[0];
      if !Eligible(e.path) {
        assert IngestFrom(entries, fileNo) == IngestFrom(entries[1..], fileNo);
        IngestIdChunks(entries[1..], fileNo);
      } else {
        var b := IngestFrom(entries, fileNo).value;
        var rest := IngestFrom(entries[1..], fileNo + 1).value;
        var n := |Chunks(e.text)|;
        IngestIdChunks(entries[1..], fileNo + 1);
        assert b.ids == FileIds(e.path, fileNo, n) + rest.ids;
        assert b.metas == FileMetas(e.path, n) + rest.metas;
        FileIdsBeforeChunks(e.path, fileNo, n, rest.ids, rest.metas);
      }
    }
  }

  /** Prepending one file's ids and metas keeps each id's chunk number equal to its meta's. */
  lemma FileIdsBeforeChunks(path: string, fileNo: nat, n: nat, ids: seq<string>, metas: seq<Meta>)
    requires |ids| == |metas|
    requires forall j :: 0 <= j < |ids| ==> ParseChunkId(ids[j]).Some? && ParseChunkId(ids[j]).value.1 == metas[j].chunk
    ensures var all := FileIds(path, fileNo, n) + ids; var allMetas := FileMetas(path, n) + metas;
      forall j :: 0 <= j < |all| ==> ParseChunkId(all[j]).Some? && ParseChunkId(all[j]).value.1 == allMetas[j].chunk
  {
    var all := FileIds(path, fileNo, n) + ids;
    var allMetas := FileMetas(path, n) + metas;
    forall j | 0 <= j < |all|
      ensures ParseChunkId(all[j]).Some? && ParseChunkId(all[j]).value.1 == allMetas[j].chunk
    {
      IdAt(path, fileNo, n, ids, j);
      if j < n {
        ParseChunkIdOfChunkId(path, fileNo, j);
      } else {
        assert allMetas[j] == metas[j - n];
      }
    }
  }

  /** Prepending the ids of file `fileNo` to ids keyed by later files keeps the keys increasing. */
  lemma FileIdsBeforeKeys(path: string, fileNo: nat, n: nat, rest: seq<string>)
    requires KeysFrom(rest, fileNo + 1)
    ensures KeysFrom(FileIds(path, fileNo, n) + rest, fileNo)
  {
    var ids := FileIds(path, fileNo, n) + rest;
    FileIdsParse(path, fileNo, n, rest);
    assert forall j :: 0 <= j < |ids| ==> ParseChunkId(ids[j]).Some? && ParseChunkId(ids[j]).value.0 >= fileNo by {
      forall j | 0 <= j < |ids| ensures ParseChunkId(ids[j]).Some? && ParseChunkId(ids[j]).value.0 >= fileNo {
        if j >= n {
          assert ParseChunkId(rest[j - n]).Some?;
        }
      }
    }
    forall j1, j2 | 0 <= j1 < j2 < |ids|
      ensures KeyLess(ParseChunkId(ids[j1]).value, ParseChunkId(ids[j2]).value)
    {
      if j1 >= n {
        assert KeyLess(ParseChunkId(rest[j1 - n]).value, ParseChunkId(rest[j2 - n]).value);
      }
    }
  }
  /** Position by position, the first `n` ids parse to this file's keys and the rest parse as `rest` does. */
  lemma FileIdsParse(path: string, fileNo: nat, n: nat, rest: seq<string>)
    ensures |FileIds(path, fileNo, n) + rest| == n + |rest|
    ensures forall j :: 0 <= j < n ==> ParseChunkId((FileIds(path, fileNo, n) + rest)[j]) == Some((fileNo, j))
    ensures forall j :: n <= j < n + |rest| ==>
      ParseChunkId((FileIds(path, fileNo, n) + rest)[j]) == ParseChunkId(rest[j - n])
  {
    forall j | 0 <= j < n + |rest|
      ensures j < n ==> ParseChunkId((FileIds(path, fileNo, n) + rest)[j]) == Some((fileNo, j))
      ensures j >= n ==> ParseChunkId((FileIds(path, fileNo, n) + rest)[j]) == ParseChunkId(rest[j - n])
    {
      IdAt(path, fileNo, n, rest, j);
      if j < n {
        ParseChunkIdOfChunkId(path, fileNo, j);
      }
    }
  }


  lemma IdAt(path: string, fileNo: nat, n: nat, rest: seq<string>, j: nat)
    requires j < n + |rest|
    ensures (FileIds(path, fileNo, n) + rest)[j] == if j < n then ChunkId(path, fileNo, j) else rest[j - n]
  {
  }

  /** No two documents of one ingestion share an id. */
  lemma IngestIdsDistinct(entries: seq<Entry>)
    requires Readable(entries)
    ensures Ingest(entries).value.added.Some? ==>
      var ids := Ingest(entries).value.added.value.ids;
      forall j1, j2 :: 0 <= j1 < j2 < |ids| ==> ids[j1] != ids[j2]
  {
    IngestIdKeys(entries, 0);
  }

  // ---------------------------------------------------------------------------
  //  Retrieval
  // ---------------------------------------------------------------------------

  datatype Hit = Hit(text: string, snippet: string, meta: Meta, score: real)

  /** The first row of a collection query: documents, metadatas and distances. */
  datatype QueryResult = QueryResult(documents: seq<string>, metadatas: seq<Meta>, distances: seq<real>)

  /** `d[:400] + ("..." if len(d) > 400 else "")` */
  function Snippet(d: string): (r: string)
    ensures |d| <= SnippetLength ==> r == d
    ensures |d| > SnippetLength ==> |r| == SnippetLength + |Ellipsis| && EndsWith(r, Ellipsis)
    ensures IsPrefix(d[..Min(SnippetLength, |d|)], r)
  {
    Slice(d, 0, SnippetLength) + (if |d| > SnippetLength then Ellipsis else "")
  }

  /** `zip(docs, metas, dists)`: one hit per aligned triple, stopping at the shortest list. */
  function Retrieve(res: QueryResult): (hits: seq<Hit>)
    ensures |hits| == Min(|res.documents|, Min(|res.metadatas|, |res.distances|))
    ensures forall i :: 0 <= i < |hits| ==>
      hits[i].text == res.documents[i] && hits[i].meta == res.metadatas[i]
      && hits[i].score == res.distances[i]
      && hits[i].snippet == Snippet(res.documents[i])
      && IsPrefix(res.documents[i][..Min(SnippetLength, |res.documents[i]|)], hits[i].snippet)
      && |hits[i].snippet| <= SnippetLength + |Ellipsis|
  {
    var n := Min(|res.documents|, Min(|res.metadatas|, |res.distances|));
    seq(n, i requires 0 <= i < n =>
      Hit(res.documents[i], Snippet(res.documents[i]), res.metadatas[i], res.distances[i]))
  }

  function HitTexts(hits: seq<Hit>): (r: seq<string>)
    ensures |r| == |hits| && forall i :: 0 <= i < |hits| ==> r[i] == hits[i].text
  {
    seq(|hits|, i requires 0 <= i < |hits| => hits[i].text)
  }

  function HitMetas(hits: seq<Hit>): (r: seq<Meta>)
    ensures |r| == |hits| && forall i :: 0 <= i < |hits| ==> r[i] == hits[i].meta
  {
    seq(|hits|, i requires 0 <= i < |hits| => hits[i].meta)
  }

  function HitScores(hits: seq<Hit>): (r: seq<real>)
    ensures |r| == |hits| && forall i :: 0 <= i < |hits| ==> r[i] == hits[i].score
  {
    seq(|hits|, i requires 0 <= i < |hits| => hits[i].score)
  }

  /** Unzipping the hits gives back the aligned leading part of each list of the query result:
      the hits stop exactly where the shortest list ends, and nothing is reordered or invented. */
  lemma RetrieveUnzip(res: QueryResult)
    ensures var hits := Retrieve(res); var n := |hits|;
      && n <= |res.documents| && n <= |res.metadatas| && n <= |res.distances|
      && (n == |res.documents| || n == |res.metadatas| || n == |res.distances|)
      && HitTexts(hits) == res.documents[..n]
      && HitMetas(hits) == res.metadatas[..n]
      && HitScores(hits) == res.distances[..n]
  {
    var hits := Retrieve(res);
    var n := |hits|;
    assert HitTexts(hits) == res.documents[..n];
    assert HitMetas(hits) == res.metadatas[..n];
    assert HitScores(hits) == res.distances[..n];
  }

  // ---------------------------------------------------------------------------
  //  Prompt sources and generation
  // ---------------------------------------------------------------------------

  /** `f"[{i}] {src} (chunk {ch})\n"`, the first line of a source block. */
  function SourceHeader(i: int, src: string, ch: int): string {
    "[" + Numerals.IntStr(i) + "] " + src + " (chunk " + Numerals.IntStr(ch) + ")\n"
  }

  /** `f"[{i}] {src} (chunk {ch})\n{c['text']}\n"` */
  function SourceBlock(i: int, h: Hit): string {
    SourceHeader(i, h.meta.source, h.meta.chunk) + (h.text + "\n")
  }

  function SourceBlocks(ctx: seq<Hit>): (r: seq<string>)
    ensures |r| == |ctx| && forall i :: 0 <= i < |ctx| ==> r[i] == SourceBlock(i + 1, ctx[i])
  {
    seq(|ctx|, i requires 0 <= i < |ctx| => SourceBlock(i + 1, ctx[i]))
  }

  /** `_format_sources`: the blocks joined with newlines. */
  function FormatSources(ctx: seq<Hit>): string {
    Join(SourceBlocks(ctx), "\n")
  }

  /** The listing holds one block per hit, in retrieval order: the `i`-th hit appears, numbered
      `i + 1` and carrying its source, chunk and full text, at a fixed offset, right after a newline. */
  lemma FormatSourcesPlacement(ctx: seq<Hit>, i: nat)
    requires i < |ctx|
    ensures var blocks := SourceBlocks(ctx); var o := JoinOffset(blocks, 1, i);
      && blocks[i] == SourceBlock(i + 1, ctx[i])
      && o + |blocks[i]| <= |FormatSources(ctx)|
      && FormatSources(ctx)[o..o + |blocks[i]|] == blocks[i]
      && (i > 0 ==> FormatSources(ctx)[o - 1] == '\n')
  {
    JoinCharPlacement(SourceBlocks(ctx), '\n', i);
  }

  /** The listing is exactly as long as its blocks plus one newline between each pair. */
  lemma FormatSourcesLength(ctx: seq<Hit>)
    ensures |ctx| == 0 ==> FormatSources(ctx) == ""
    ensures |ctx| > 0 ==> |FormatSources(ctx)| == JoinOffset(SourceBlocks(ctx), 1, |ctx| - 1) + |SourceBlock(|ctx|, ctx[|ctx| - 1])|
  {
    if |ctx| > 0 {
      JoinLength(SourceBlocks(ctx), "\n");
    }
  }

  const SystemPrompt: string :=
    "You are a helpful assistant that must answer ONLY using the provided "
    + "sources. "
    + "If the information is not present in the sources, explicitly say so. "
    + "Answer in concise English. Always include citations as [1], [2], ..."

  const ReplyShape: string :=
    "Return a valid JSON object with the following shape: "
    + "{'answer': str, 'citations': [{'source': str, 'chunk': int}]}"

  function PromptHead(question: string): string {
    "Question: " + question + "\n\n" + "Sources:\n"
  }

  const PromptTail: string := "\n\n" + ReplyShape

  function UserPrompt(question: string, ctx: seq<Hit>): string {
    Prompt(PromptHead(question), ctx, PromptTail)
  }

  /** The numbered sources between an opening and a closing text. */
  function Prompt(head: string, ctx: seq<Hit>, tail: string): string {
    head + FormatSources(ctx) + tail
  }

  /** The chat-completions request: system and user messages, temperature 0.2, 512 tokens. */
  datatype ChatRequest = ChatRequest(system: string, user: string, temperature: real, maxTokens: nat)

  /** A value as `json.loads` returns it. Numbers are kept only as integers. */
  datatype Json =
    | JNull
    | JBool(b: bool)
    | JNum(n: int)
    | JStr(s: string)
    | JArray(items: seq<Json>)
    | JObject(members: map<string, Json>)

  predicate IsObject(parsed: Option<Json>) {
    parsed.Some? && parsed.value.JObject?
  }

  /** `data.get(key, default)` on a parsed object. */
  function Get(members: map<string, Json>, key: string, default: Json): (r: Json)
    ensures key in members ==> r == members[key]
    ensures key !in members ==> r == default
  {
    if key in members then members[key] else default
  }

  predicate AllObjects(items: seq<Json>) {
    forall k :: 0 <= k < |items| ==> items[k].JObject?
  }

  function ObjectMembers(items: seq<Json>): (r: seq<map<string, Json>>)
    requires AllObjects(items)
    ensures |r| == |items| && forall k :: 0 <= k < |items| ==> JObject(r[k]) == items[k]
  {
    seq(|items|, k requires 0 <= k < |items| => items[k].members)
  }

  /** `RAGResponse(answer: str, citations: List[Dict[str, Any]])`: the citations are kept as
      the dictionaries they are. */
  datatype RagResponse = RagResponse(answer: string, citations: seq<map<string, Json>>)

  /** Constructing `RAGResponse` under Pydantic's lax validation: `answer` must be a string
      and `citations` a list of objects; anything else raises ValidationError. */
  function Validate(answer: Json, citations: Json): (r: Result<RagResponse>)
    ensures r.Ok? <==> answer.JStr? && citations.JArray? && AllObjects(citations.items)
    ensures r.Err? ==> r.error == ValidationError
    ensures r.Ok? ==>
      && r.value.answer == answer.s
      && |r.value.citations| == |citations.items|
      && forall k :: 0 <= k < |citations.items| ==> JObject(r.value.citations[k]) == citations.items[k]
  {
    if answer.JStr? && citations.JArray? && AllObjects(citations.items) then
      Ok(RagResponse(answer.s, ObjectMembers(citations.items)))
    else Err(ValidationError)
  }

  /** The model call made, if any, and what `generate` returns or raises. */
  datatype Generation = Generation(request: Option<ChatRequest>, response: Result<RagResponse>)

  /** `{"source": …, "chunk": …}` for one hit. */
  function FallbackCitation(h: Hit): map<string, Json> {
    map["source" := JStr(h.meta.source), "chunk" := JNum(h.meta.chunk)]
  }

  /** One `{source, chunk}` citation per hit, in retrieval order. */
  function FallbackCitations(ctx: seq<Hit>): (r: seq<map<string, Json>>)
    ensures |r| == |ctx|
    ensures forall i :: 0 <= i < |ctx| ==>
      && r[i].Keys == {"source", "chunk"}
      && r[i]["source"] == JStr(ctx[i].meta.source)
      && r[i]["chunk"] == JNum(ctx[i].meta.chunk)
  {
    seq(|ctx|, i requires 0 <= i < |ctx| => FallbackCitation(ctx[i]))
  }

  function AsObjects(cits: seq<map<string, Json>>): (r: seq<Json>)
    ensures |r| == |cits| && forall k :: 0 <= k < |cits| ==> r[k] == JObject(cits[k])
  {
    seq(|cits|, k requires 0 <= k < |cits| => JObject(cits[k]))
  }

  /** `generate` after retrieval: `ctx` are the hits, `content` the model's message content
      and `parsed` what `json.loads(content or "")` returns, `None` when it raises. Parsing
      failures and a non-object reply (whose `.get` raises) take the fallback; the response
      is then validated outside the `try`. */
  function Generate(question: string, ctx: seq<Hit>, content: Option<string>, parsed: Option<Json>): (g: Generation)
    ensures |ctx| == 0 <==> g.request.None?
    ensures |ctx| == 0 ==> g.response == Ok(RagResponse(NoDocumentsAnswer, []))
    ensures g.request.Some? ==>
      && g.request.value.system == SystemPrompt
      && g.request.value.temperature == 0.2 && g.request.value.maxTokens == 512
      && IsPrefix(PromptHead(question) + FormatSources(ctx), g.request.value.user)
      && g.request.value.user == UserPrompt(question, ctx)
    ensures |ctx| > 0 && !IsObject(parsed) ==>
      g.response == Ok(RagResponse(content.GetOr(""), FallbackCitations(ctx)))
    ensures |ctx| > 0 && IsObject(parsed) ==>
      var o := parsed.value.members;
      && (g.response.Ok? <==>
            && ("answer" in o ==> o["answer"].JStr?)
            && ("citations" in o ==> o["citations"].JArray? && AllObjects(o["citations"].items)))
      && (g.response.Err? ==> g.response.error == ValidationError)
      && (g.response.Ok? ==>
            && g.response.value.answer == (if "answer" in o then o["answer"].s else "")
            && AsObjects(g.response.value.citations) == (if "citations" in o then o["citations"].items else []))
  {
    if |ctx| == 0 then
      Generation(None, Ok(RagResponse(NoDocumentsAnswer, [])))
    else
      var request := ChatRequest(SystemPrompt, UserPrompt(question, ctx), 0.2, 512);
      var fallback := !IsObject(parsed);
      var answer := if fallback then JStr(content.GetOr("")) else Get(parsed.value.members, "answer", JStr(""));
      var cits :=
        if fallback then JArray(AsObjects(FallbackCitations(ctx)))
        else Get(parsed.value.members, "citations", JArray([]));
      var response := Validate(answer, cits);
      assert fallback ==> response.Ok? && response.value.citations == FallbackCitations(ctx);
      assert !fallback && response.Ok? ==> AsObjects(response.value.citations) == cits.items;
      Generation(Some(request), response)
  }

  /** A reply of exactly the requested shape `{'answer': str, 'citations': [{…}]}` comes back
      as the response unchanged. */
  lemma GenerateKeepsRequestedShape(question: string, ctx: seq<Hit>, content: Option<string>,
                                    answer: string, cits: seq<map<string, Json>>)
    requires |ctx| > 0
    ensures Generate(question, ctx, content,
                     Some(JObject(map["answer" := JStr(answer), "citations" := JArray(AsObjects(cits))])))
            .response == Ok(RagResponse(answer, cits))
  {
    var g := Generate(question, ctx, content,
                      Some(JObject(map["answer" := JStr(answer), "citations" := JArray(AsObjects(cits))])));
    assert AsObjects(g.response.value.citations) == AsObjects(cits);
    AsObjectsInjective(g.response.value.citations, cits);
  }

  lemma AsObjectsInjective(a: seq<map<string, Json>>, b: seq<map<string, Json>>)
    requires AsObjects(a) == AsObjects(b)
    ensures a == b
  {
    assert |a| == |b|;
    forall k | 0 <= k < |a| ensures a[k] == b[k] {
      assert AsObjects(a)[k] == AsObjects(b)[k];
    }
  }

  /** Without a usable JSON object, citation `i` names exactly the source and chunk that the
      prompt listed under `[i + 1]`, at that block's place in the user message. */
  lemma GenerateFallbackCitesPrompt(question: string, ctx: seq<Hit>, content: Option<string>,
                                    parsed: Option<Json>, i: nat)
    requires i < |ctx| && !IsObject(parsed)
    ensures var g := Generate(question, ctx, content, parsed);
      && g.request.Some? && g.response.Ok? && i < |g.response.value.citations|
      && (var cit := g.response.value.citations[i];
          && cit.Keys == {"source", "chunk"} && cit["source"].JStr? && cit["chunk"].JNum?
          && (var o := |PromptHead(question)| + JoinOffset(SourceBlocks(ctx), 1, i);
              && o <= |g.request.value.user|
              && IsPrefix(SourceHeader(i + 1, cit["source"].s, cit["chunk"].n), g.request.value.user[o..])))
  {
    PromptHeader(PromptHead(question), ctx, PromptTail, i);
  }

  /** The header of hit `i`'s block sits in the user message at the block's offset. */
  lemma PromptHeader(head: string, ctx: seq<Hit>, tail: string, i: nat)
    requires i < |ctx|
    ensures |head| + JoinOffset(SourceBlocks(ctx), 1, i) <= |Prompt(head, ctx, tail)|
    ensures IsPrefix(SourceHeader(i + 1, ctx[i].meta.source, ctx[i].meta.chunk),
      Prompt(head, ctx, tail)[|head| + JoinOffset(SourceBlocks(ctx), 1, i)..])
  {
    SourceBlockHeader(ctx, i);
    PromptAsJoin(head, ctx, tail, i);
    JoinPieceWithin(head, SourceBlocks(ctx), "\n", tail, i, SourceHeader(i + 1, ctx[i].meta.source, ctx[i].meta.chunk),
      Prompt(head, ctx, tail), |head| + JoinOffset(SourceBlocks(ctx), 1, i));
  }

  /** The message is the head, the blocks joined with a one-character separator, and the tail. */
  lemma PromptAsJoin(head: string, ctx: seq<Hit>, tail: string, i: nat)
    requires i < |ctx|
    ensures i < |SourceBlocks(ctx)|
    ensures Prompt(head, ctx, tail) == head + Join(SourceBlocks(ctx), "\n") + tail
    ensures |head| + JoinOffset(SourceBlocks(ctx), 1, i) == |head| + JoinOffset(SourceBlocks(ctx), |"\n"|, i)
  {
  }

  lemma SourceBlockHeader(ctx: seq<Hit>, i: nat)
    requires i < |ctx|
    ensures IsPrefix(SourceHeader(i + 1, ctx[i].meta.source, ctx[i].meta.chunk), SourceBlocks(ctx)[i])
  {
    var hd := SourceHeader(i + 1, ctx[i].meta.source, ctx[i].meta.chunk);
    assert SourceBlocks(ctx)[i] == hd + (ctx[i].text + "\n");
    assert SourceBlocks(ctx)[i][..|hd|] == hd;
  }
}

=== FILE: request_trace.dfy ===
/** One request through the directly instrumented frontend and backend: the backend
    continues the frontend's trace, so both services tag their metrics and logs with the
    same trace id. */
module RequestTrace {
  import opened Wrappers
  import opened Jaeger
  import opened Telemetry
  import DirectFrontend
  import DirectBackend

  /** When the frontend's trace header reaches the backend, whatever the case of its name and
      whatever other headers the request carries, the backend tags its metric and log with the
      frontend's trace id, under a child of the frontend's span. */
  lemma TraceCarriedAcross(frontIds: FreshIds, backIds: FreshIds, url: string, d1: real, d2: real,
                           clientIp: string, received: Headers, k: nat)
    requires TraceHeaderAt(received, k, DirectFrontend.OutboundHeaders(RootSpan(frontIds))[0].1)
    ensures var front := DirectFrontend.Index(frontIds, url, d1, DirectFrontend.Answered(DirectBackend.Reply));
      var back := DirectBackend.Process(received, backIds, clientIp, d2);
      && Correlated(front.effects, DirectFrontend.TraceTag(front.span))
      && Correlated(back.effects, DirectFrontend.TraceTag(front.span))
      && back.span.traceId == front.span.traceId
      && back.span.parentId == front.span.spanId
      && front.response == Ok(DirectFrontend.ReplyPrefix + DirectBackend.Reply)
  {
    ExtractInject(RootSpan(frontIds), received, k);
  }
}

=== FILE: retrain.dfy ===
/** `retrain.run`: read the drift score from the HTML report if there is one and retrain
    when it exceeds the threshold. Parsing the HTML and the float is left to an input: the
    report is absent, lacks the `#drift_score` element, or carries a score. */
module Retrain {
  import opened Wrappers
  import PipelineMonitoring

  const DefaultScoreThreshold: real := 0.6

  datatype DriftReport = Absent | NoScoreElement | Scored(score: real)

  datatype Outcome = Retrained(drift: real) | DriftOk(drift: real)

  /** The drift read from the report; 0.0 when there is no report file, and
      `select_one(...)` returning None makes `.text` raise AttributeError. */
  function ReadDrift(report: DriftReport): (r: Result<real>)
    ensures report.Absent? ==> r == Ok(0.0)
    ensures report.Scored? ==> r == Ok(report.score)
    ensures report.NoScoreElement? ==> r == Err(AttributeError)
  {
    match report
    case Absent => Ok(0.0)
    case NoScoreElement => Err(AttributeError)
    case Scored(s) => Ok(s)
  }

  function Run(threshold: real, report: DriftReport): (r: Result<Outcome>)
    ensures r.Ok? <==> !report.NoScoreElement?
    ensures r.Ok? ==> r.value.drift == ReadDrift(report).value
    ensures r.Ok? ==> (r.value.Retrained? <==> r.value.drift > threshold)
  {
    var drift :- ReadDrift(report);
    if drift > threshold then Ok(Retrained(drift)) else Ok(DriftOk(drift))
  }

  /** A score equal to the threshold takes the "ok" branch. */
  lemma RunAtThreshold(t: real)
    ensures Run(t, Scored(t)) == Ok(DriftOk(t))
  {
  }

  /** Without a report and with a non-negative threshold nothing is retrained. */
  lemma RunWithoutReport(threshold: real)
    requires threshold >= 0.0
    ensures Run(threshold, Absent) == Ok(DriftOk(0.0))
  {
  }

  /** The two retrain rules disagree exactly at the threshold: the monitoring flow retrains
      on a p-value equal to its threshold, this command does not on an equal score. */
  lemma OppositeSensesAtThreshold(t: real)
    ensures PipelineMonitoring.Retrains(PipelineMonitoring.TriggerIfDrift(t, t))
    ensures Run(t, Scored(t)).value.DriftOk?
  {
  }

  /** At the two commands' default thresholds, a p-value of exactly 0.05 launches retraining
      while a drift score of exactly 0.6 does not. */
  lemma OppositeSensesAtDefaults()
    ensures PipelineMonitoring.Retrains(
      PipelineMonitoring.TriggerIfDrift(0.05, PipelineMonitoring.DefaultPThreshold))
    ensures Run(DefaultScoreThreshold, Scored(0.6)) == Ok(DriftOk(0.6))
  {
    OppositeSensesAtThreshold(PipelineMonitoring.DefaultPThreshold);
    RunAtThreshold(DefaultScoreThreshold);
  }
}

=== FILE: strings.dfy ===
/** The Python string operations the modelled code relies on: `str.split`,
    `str.join`, `str.endswith`, `str.lower`, `str.replace`, `str.rfind`, slicing,
    and the `name`/`suffix`/`stem` properties of `pathlib.Path`. */
module Strings {
  import opened Wrappers

  function Min(a: int, b: int): int {
    if a <= b then a else b
  }

  predicate IsPrefix(p: string, s: string) {
    |p| <= |s| && s[..|p|] == p
  }

  /** `s.endswith(suffix)` */
  predicate EndsWith(s: string, suffix: string) {
    |suffix| <= |s| && s[|s| - |suffix|..] == suffix
  }

  /** Python slice `s[i:j]`, which clamps both bounds to the string. */
  function Slice(s: string, i: nat, j: nat): (r: string)
    ensures |r| == if i < Min(j, |s|) then Min(j, |s|) - i else 0
  {
    var hi := Min(j, |s|);
    if i < hi then s[i..hi] else ""
  }

  // ---------------------------------------------------------------------------
  //  split / join
  // ---------------------------------------------------------------------------

  /** `s.split(sep)` for a one-character separator: every occurrence splits. */
  function Split(s: string, sep: char): (r: seq<string>)
    ensures |r| >= 1
    ensures forall k :: 0 <= k < |r| ==> sep !in r[k]
    decreases |s|
  {
    if |s| == 0 then [""]
    else
      var rest := Split(s[1..], sep);
      if s[0] == sep then [""] + rest else [[s[0]] + rest[0]] + rest[1..]
  }

  /** `sep.join(parts)` */
  function Join(parts: seq<string>, sep: string): string
    decreases |parts|
  {
    if |parts| == 0 then ""
    else if |parts| == 1 then parts[0]
    else parts[0] + sep + Join(parts[1..], sep)
  }

  function CountChar(s: string, c: char): nat {
    if |s| == 0 then 0 else (if s[0] == c then 1 else 0) + CountChar(s[1..], c)
  }

  /** Splitting yields one more piece than there are separators. */
  lemma {:induction false} SplitCount(s: string, sep: char)
    ensures |Split(s, sep)| == CountChar(s, sep) + 1
    decreases |s|
  {
    if |s| > 0 {
      SplitCount(s[1..], sep);
    }
  }

  /** Joining the pieces back with the separator restores the string. */
  lemma {:induction false} JoinSplit(s: string, sep: char)
    ensures Join(Split(s, sep), [sep]) == s
    decreases |s|
  {
    if |s| > 0 {
      var rest := Split(s[1..], sep);
      JoinSplit(s[1..], sep);
      if s[0] == sep {
        assert Split(s, sep) == [""] + rest;
        assert ([""] + rest)[1..] == rest;
      } else {
        var r := Split(s, sep);
        assert r == [[s[0]] + rest[0]] + rest[1..];
        if |rest| == 1 {
          assert r == [[s[0]] + rest[0]];
        } else {
          assert r[1..] == rest[1..];
          assert Join(rest, [sep]) == rest[0] + [sep] + Join(rest[1..], [sep]);
        }
      }
    }
  }

  lemma {:induction false} SplitNoSep(a: string, sep: char)
    requires sep !in a
    ensures Split(a, sep) == [a]
    decreases |a|
  {
    if |a| > 0 {
      assert sep !in a[1..] by {
        forall k | 0 <= k < |a[1..]| ensures a[1..][k] != sep {
          assert a[1..][k] == a[k + 1];
        }
      }
      SplitNoSep(a[1..], sep);
      assert [a[0]] + a[1..] == a;
    }
  }

  lemma {:induction false} SplitAfterPiece(a: string, sep: char, b: string)
    requires sep !in a
    ensures Split(a + [sep] + b, sep) == [a] + Split(b, sep)
    decreases |a|
  {
    if |a| == 0 {
      assert a + [sep] + b == [sep] + b;
      assert ([sep] + b)[1..] == b;
    } else {
      var s := a + [sep] + b;
      assert s[1..] == a[1..] + [sep] + b;
      assert sep !in a[1..] by {
        forall k | 0 <= k < |a[1..]| ensures a[1..][k] != sep {
          assert a[1..][k] == a[k + 1];
        }
      }
      SplitAfterPiece(a[1..], sep, b);
      assert [a[0]] + a[1..] == a;
    }
  }

  /** Splitting a join of separator-free pieces gives the pieces back. */
  lemma {:induction false} SplitJoin(parts: seq<string>, sep: char)
    requires |parts| >= 1
    requires forall k :: 0 <= k < |parts| ==> sep !in parts[k]
    ensures Split(Join(parts, [sep]), sep) == parts
    decreases |parts|
  {
    if |parts| == 1 {
      SplitNoSep(parts[0], sep);
    } else {
      SplitJoin(parts[1..], sep);
      SplitAfterPiece(parts[0], sep, Join(parts[1..], [sep]));
      assert [parts[0]] + parts[1..] == parts;
    }
  }

  /** Where the `i`-th piece starts inside `Join(parts, sep)`. */
  function JoinOffset(parts: seq<string>, sepLen: nat, i: nat): nat
    requires i <= |parts|
  {
    if i == 0 then 0 else JoinOffset(parts, sepLen, i - 1) + |parts[i - 1]| + sepLen
  }

  lemma {:induction false} JoinOffsetShift(parts: seq<string>, sepLen: nat, i: nat)
    requires 1 <= i <= |parts|
    ensures JoinOffset(parts, sepLen, i) == |parts[0]| + sepLen + JoinOffset(parts[1..], sepLen, i - 1)
    decreases i
  {
    if i > 1 {
      JoinOffsetShift(parts, sepLen, i - 1);
    }
  }

  /** Every piece of a join sits at its offset, preceded by the separator when it is not the first. */
  lemma JoinPlacement(parts: seq<string>, sep: string, i: nat)
    requires i < |parts|
    ensures JoinOffset(parts, |sep|, i) + |parts[i]| <= |Join(parts, sep)|
    ensures Join(parts, sep)[JoinOffset(parts, |sep|, i)..JoinOffset(parts, |sep|, i) + |parts[i]|] == parts[i]
    ensures i > 0 ==> Join(parts, sep)[JoinOffset(parts, |sep|, i) - |sep|..JoinOffset(parts, |sep|, i)] == sep
  {
    JoinPiece(parts, sep, i);
    if i > 0 {
      JoinSepBefore(parts, sep, i);
    }
  }

  lemma {:induction false} JoinPiece(parts: seq<string>, sep: string, i: nat)
    requires i < |parts|
    ensures JoinOffset(parts, |sep|, i) + |parts[i]| <= |Join(parts, sep)|
    ensures Join(parts, sep)[JoinOffset(parts, |sep|, i)..JoinOffset(parts, |sep|, i) + |parts[i]|] == parts[i]
    decreases |parts|
  {
    var j := Join(parts, sep);
    if i == 0 {
      if |parts| > 1 {
        assert j == parts[0] + (sep + Join(parts[1..], sep));
        assert j[..|parts[0]|] == parts[0];
      }
    } else {
      var head := parts[0] + sep;
      var rest := Join(parts[1..], sep);
      assert j == head + rest;
      JoinPiece(parts[1..], sep, i - 1);
      JoinOffsetShift(parts, |sep|, i);
      var o := JoinOffset(parts[1..], |sep|, i - 1);
      assert parts[1..][i - 1] == parts[i];
      SliceShift(head, rest, o, o + |parts[i]|);
    }
  }

  lemma {:induction false} JoinSepBefore(parts: seq<string>, sep: string, i: nat)
    requires 0 < i < |parts|
    ensures JoinOffset(parts, |sep|, i) + |parts[i]| <= |Join(parts, sep)|
    ensures Join(parts, sep)[JoinOffset(parts, |sep|, i) - |sep|..JoinOffset(parts, |sep|, i)] == sep
    decreases |parts|
  {
    var j := Join(parts, sep);
    var head := parts[0] + sep;
    var rest := Join(parts[1..], sep);
    assert j == head + rest;
    JoinPiece(parts, sep, i);
    JoinOffsetShift(parts, |sep|, i);
    if i == 1 {
      assert j[|head| - |sep|..|head|] == head[|parts[0]|..];
    } else {
      JoinSepBefore(parts[1..], sep, i - 1);
      var o := JoinOffset(parts[1..], |sep|, i - 1);
      SliceShift(head, rest, o - |sep|, o);
    }
  }

  /** A prefix of a piece of a join starts the join at that piece's offset. */
  lemma JoinPiecePrefix(parts: seq<string>, sep: string, i: nat, hd: string)
    requires i < |parts| && IsPrefix(hd, parts[i])
    ensures JoinOffset(parts, |sep|, i) <= |Join(parts, sep)|
    ensures IsPrefix(hd, Join(parts, sep)[JoinOffset(parts, |sep|, i)..])
  {
    JoinPiece(parts, sep, i);
    var o := JoinOffset(parts, |sep|, i);
    var j := Join(parts, sep);
    forall q | 0 <= q < |hd| ensures j[o..][q] == hd[q] {
      assert j[o..][q] == j[o..o + |parts[i]|][q];
      assert hd[q] == parts[i][..|hd|][q];
    }
    assert j[o..][..|hd|] == hd;
  }

  /** A prefix of the rest of the middle part of a concatenation, from the same place. */
  lemma PrefixWithin(x: string, y: string, z: string, o: nat, hd: string)
    requires o <= |y| && IsPrefix(hd, y[o..])
    ensures |x| + o <= |x + y + z| && IsPrefix(hd, (x + y + z)[|x| + o..])
  {
    var w := x + y + z;
    forall q | 0 <= q < |hd| ensures w[|x| + o + q] == hd[q] {
      assert w[|x| + o + q] == y[o + q];
      assert y[o + q] == y[o..][..|hd|][q];
    }
    assert w[|x| + o..][..|hd|] == hd;
  }

  /** A prefix of a piece of a join, with text around the join, starts the rest of the whole
      at the piece's offset shifted by the text before. */
  lemma JoinPieceWithin(x: string, parts: seq<string>, sep: string, z: string, i: nat, hd: string,
                        w: string, o: nat)
    requires i < |parts| && IsPrefix(hd, parts[i])
    requires w == x + Join(parts, sep) + z && o == |x| + JoinOffset(parts, |sep|, i)
    ensures o <= |w| && IsPrefix(hd, w[o..])
  {
    JoinPiecePrefix(parts, sep, i, hd);
    PrefixWithin(x, Join(parts, sep), z, JoinOffset(parts, |sep|, i), hd);
  }

  /** A slice of the second part of a concatenation, in the concatenation's positions. */
  lemma SliceShift(x: string, y: string, a: nat, b: nat)
    requires a <= b <= |y|
    ensures (x + y)[|x| + a..|x| + b] == y[a..b]
  {
  }

  /** `JoinPlacement` for a one-character separator. */
  lemma JoinCharPlacement(parts: seq<string>, sep: char, i: nat)
    requires i < |parts|
    ensures var o := JoinOffset(parts, 1, i); var j := Join(parts, [sep]);
      && o + |parts[i]| <= |j|
      && j[o..o + |parts[i]|] == parts[i]
      && (i > 0 ==> j[o - 1] == sep)
  {
    var o := JoinOffset(parts, 1, i);
    var j := Join(parts, [sep]);
    JoinPlacement(parts, [sep], i);
    if i > 0 {
      assert j[o - 1] == j[o - 1..o][0];
    }
  }

  /** Total length of a join. */
  lemma {:induction false} JoinLength(parts: seq<string>, sep: string)
    requires |parts| > 0
    ensures |Join(parts, sep)| == JoinOffset(parts, |sep|, |parts| - 1) + |parts[|parts| - 1]|
    decreases |parts|
  {
    if |parts| > 1 {
      JoinLength(parts[1..], sep);
      JoinOffsetShift(parts, |sep|, |parts| - 1);
    }
  }

  // ---------------------------------------------------------------------------
  //  rfind, lower, replace
  // ---------------------------------------------------------------------------

  /** `s.rfind(c)`: the last index of `c`, or None (Python's -1). */
  function LastIndexOf(s: string, c: char): (r: Option<nat>)
    ensures r.Some? ==> r.value < |s| && s[r.value] == c && c !in s[r.value + 1..]
    ensures r.None? ==> c !in s
    decreases |s|
  {
    if |s| == 0 then None
    else if s[|s| - 1] == c then Some(|s| - 1)
    else
      var r := LastIndexOf(s[..|s| - 1], c);
      assert s == s[..|s| - 1] + [s[|s| - 1]];
      r
  }

  /** The last occurrence of a separator that is absent from `b` is the one just before `b`. */
  lemma {:induction false} LastIndexOfBeforeTail(a: string, c: char, b: string)
    requires c !in b
    ensures LastIndexOf(a + [c] + b, c) == Some(|a|)
    decreases |b|
  {
    var s := a + [c] + b;
    if |b| == 0 {
      assert s[|s| - 1] == c;
    } else {
      var b' := b[..|b| - 1];
      assert s[|s| - 1] == b[|b| - 1] != c;
      assert s[..|s| - 1] == a + [c] + b';
      assert c !in b' by {
        forall k | 0 <= k < |b'| ensures b'[k] != c {
          assert b'[k] == b[k];
        }
      }
      LastIndexOfBeforeTail(a, c, b');
    }
  }

  function ToLowerChar(c: char): char {
    if 'A' <= c <= 'Z' then (c as int - 'A' as int + 'a' as int) as char else c
  }

  /** `s.lower()` over ASCII letters. */
  function Lower(s: string): (r: string)
    ensures |r| == |s| && forall i :: 0 <= i < |s| ==> r[i] == ToLowerChar(s[i])
  {
    seq(|s|, i requires 0 <= i < |s| => ToLowerChar(s[i]))
  }

  /** `s.replace(from, to)` for single characters. */
  function ReplaceChar(s: string, from: char, to: char): (r: string)
    ensures |r| == |s|
    ensures forall i :: 0 <= i < |s| ==> r[i] == if s[i] == from then to else s[i]
  {
    seq(|s|, i requires 0 <= i < |s| => if s[i] == from then to else s[i])
  }

  // ---------------------------------------------------------------------------
  //  pathlib.Path (Python 3.12): name, suffix, stem
  // ---------------------------------------------------------------------------

  /** The final component of a `/`-separated path. */
  function PathName(path: string): (r: string)
    ensures '/' !in r
  {
    match LastIndexOf(path, '/')
    case None => path
    case Some(i) => path[i + 1..]
  }

  /** `Path.suffix`: from the last dot of the name, unless the dot is first or last. */
  function Suffix(path: string): (r: string)
    ensures r == "" || (r[0] == '.' && EndsWith(PathName(path), r))
  {
    var name := PathName(path);
    match LastIndexOf(name, '.')
    case Some(i) => if 0 < i < |name| - 1 then name[i..] else ""
    case None => ""
  }

  /** `Path.stem`: the name without its suffix. */
  function Stem(path: string): (r: string)
    ensures r + Suffix(path) == PathName(path)
  {
    var name := PathName(path);
    match LastIndexOf(name, '.')
    case Some(i) =>
      if 0 < i < |name| - 1 then
        assert name[..i] + name[i..] == name;
        name[..i]
      else name
    case None => name
  }
}

=== FILE: telemetry.dfy ===
/** What a request handler emits besides its reply: a latency metric and a log line, each
    tagged with a trace id, and outgoing HTTP calls. Durations are measured wall-clock
    time, so they are inputs. */
module Telemetry {
  import Jaeger

  datatype Effect =
    | RecordMetric(traceId: string, duration: real)
    | EmitLog(message: string, traceId: string)
    | HttpGet(url: string, headers: Jaeger.Headers)

  /** The trace-id tags of the recorded metrics, in order. */
  function MetricIds(effects: seq<Effect>): (r: seq<string>)
    ensures |r| <= |effects|
  {
    if |effects| == 0 then []
    else if effects[0].RecordMetric? then [effects[0].traceId] + MetricIds(effects[1..])
    else MetricIds(effects[1..])
  }

  /** The trace-id tags of the emitted log lines, in order. */
  function LogIds(effects: seq<Effect>): (r: seq<string>)
    ensures |r| <= |effects|
  {
    if |effects| == 0 then []
    else if effects[0].EmitLog? then [effects[0].traceId] + LogIds(effects[1..])
    else LogIds(effects[1..])
  }

  /** Tags are collected effect by effect: the tags of a sequence of effects are those of
      its first part followed by those of the rest. */
  lemma {:induction false} IdsAppend(a: seq<Effect>, b: seq<Effect>)
    ensures MetricIds(a + b) == MetricIds(a) + MetricIds(b)
    ensures LogIds(a + b) == LogIds(a) + LogIds(b)
    decreases |a|
  {
    if |a| == 0 {
      assert a + b == b;
    } else {
      assert (a + b)[0] == a[0];
      assert (a + b)[1..] == a[1..] + b;
      IdsAppend(a[1..], b);
    }
  }

  /** The tags of a single effect. */
  lemma IdsOne(e: Effect)
    ensures MetricIds([e]) == (if e.RecordMetric? then [e.traceId] else [])
    ensures LogIds([e]) == (if e.EmitLog? then [e.traceId] else [])
  {
    assert [e][1..] == [];
  }

  /** A tag is collected exactly when some metric of the sequence carries it. */
  lemma {:induction false} MetricIdsMembers(effects: seq<Effect>, t: string)
    ensures t in MetricIds(effects) <==>
      exists k :: 0 <= k < |effects| && effects[k].RecordMetric? && effects[k].traceId == t
    decreases |effects|
  {
    if |effects| > 0 {
      MetricIdsMembers(effects[1..], t);
      if exists k :: 0 <= k < |effects[1..]| && effects[1..][k].RecordMetric? && effects[1..][k].traceId == t {
        var k :| 0 <= k < |effects[1..]| && effects[1..][k].RecordMetric? && effects[1..][k].traceId == t;
        assert effects[k + 1] == effects[1..][k];
      }
      if exists k :: 0 <= k < |effects| && effects[k].RecordMetric? && effects[k].traceId == t {
        var k :| 0 <= k < |effects| && effects[k].RecordMetric? && effects[k].traceId == t;
        if k > 0 {
          assert effects[1..][k - 1] == effects[k];
        }
      }
    }
  }

  /** A request is correlated under `id` when it records exactly one metric and exactly one
      log line and both carry `id`. */
  predicate Correlated(effects: seq<Effect>, id: string) {
    MetricIds(effects) == [id] && LogIds(effects) == [id]
  }

  /** A metric followed, after any untagged effects, by a log line under the same tag is a
      correlated request. */
  lemma CorrelatedSequence(id: string, duration: real, between: seq<Effect>, message: string)
    requires forall k :: 0 <= k < |between| ==> between[k].HttpGet?
    ensures Correlated([RecordMetric(id, duration)] + between + [EmitLog(message, id)], id)
  {
    UntaggedIds(between);
    IdsAppend([RecordMetric(id, duration)], between);
    IdsAppend([RecordMetric(id, duration)] + between, [EmitLog(message, id)]);
    IdsOne(RecordMetric(id, duration));
    IdsOne(EmitLog(message, id));
  }

  lemma {:induction false} UntaggedIds(effects: seq<Effect>)
    requires forall k :: 0 <= k < |effects| ==> effects[k].HttpGet?
    ensures MetricIds(effects) == [] && LogIds(effects) == []
    decreases |effects|
  {
    if |effects| > 0 {
      assert forall k :: 0 <= k < |effects[1..]| ==> effects[1..][k] == effects[k + 1];
      UntaggedIds(effects[1..]);
    }
  }
}

=== FILE: traces.dfy ===
/** `init_tracer` of the direct-instrumentation stage: split the `host:port` endpoint of
    the Jaeger agent and build the client configuration with a constant sampler. */
module Traces {
  import opened Wrappers
  import opened Strings
  import Numerals

  datatype Sampler = Sampler(kind: string, param: int)

  datatype TracerConfig = TracerConfig(
    serviceName: string, sampler: Sampler, logging: bool,
    reportingHost: string, reportingPort: int)

  /** `host, port = endpoint.split(":")` then `int(port)`: unpacking raises ValueError
      unless there are exactly two pieces, and so does a port that is not an integer. */
  function ParseEndpoint(endpoint: string): (r: Result<(string, int)>)
    ensures r.Err? ==> r.error == ValueError
    ensures r.Ok? <==> |Split(endpoint, ':')| == 2 && Numerals.PyInt(Split(endpoint, ':')[1]).Ok?
    ensures r.Ok? ==> r.value.0 == Split(endpoint, ':')[0] && ':' !in r.value.0
  {
    var parts := Split(endpoint, ':');
    if |parts| != 2 then Err(ValueError)
    else
      var port :- Numerals.PyInt(parts[1]);
      Ok((parts[0], port))
  }

  /** An endpoint without exactly one colon is rejected. */
  lemma ParseEndpointColons(endpoint: string)
    requires CountChar(endpoint, ':') != 1
    ensures ParseEndpoint(endpoint) == Err(ValueError)
  {
    SplitCount(endpoint, ':');
  }

  /** Round trip: writing a host and a port as `host:port` and parsing it gives them back. */
  lemma ParseEndpointOfJoin(host: string, port: int)
    requires ':' !in host
    ensures ParseEndpoint(host + ":" + Numerals.IntStr(port)) == Ok((host, port))
  {
    var p := Numerals.IntStr(port);
    assert ':' !in p by {
      if port < 0 {
        assert p == "-" + Numerals.ToDigits(-port, 10);
        assert forall i :: 1 <= i < |p| ==> Numerals.IsDigit(p[i], 10);
      } else {
        assert forall i :: 0 <= i < |p| ==> Numerals.IsDigit(p[i], 10);
      }
    }
    SplitJoin([host, p], ':');
    assert Join([host, p], [':']) == host + ":" + p;
    Numerals.PyIntOfIntStr(port);
  }

  /** Round trip the other way: an accepted endpoint whose port is written as `str` writes
      it is exactly `host + ":" + str(port)`, so the host is the text before the colon. */
  lemma JoinOfParseEndpoint(endpoint: string)
    requires ParseEndpoint(endpoint).Ok?
    requires Numerals.CanonicalInt(Split(endpoint, ':')[1])
    ensures var hp := ParseEndpoint(endpoint).value;
      hp.0 + ":" + Numerals.IntStr(hp.1) == endpoint
  {
    var parts := Split(endpoint, ':');
    JoinSplit(endpoint, ':');
    Numerals.IntStrOfPyInt(parts[1]);
    assert Join(parts, [':']) == parts[0] + ":" + parts[1];
  }

  /** `init_tracer(endpoint, app_name)`: the configuration handed to `jaeger_client.Config`.
      Jaeger's constant sampler keeps a trace exactly when its parameter is non-zero, so this
      one keeps every trace. */
  function InitTracer(endpoint: string, appName: string): (r: Result<TracerConfig>)
    ensures r.Ok? <==> ParseEndpoint(endpoint).Ok?
    ensures r.Ok? ==>
      && r.value.reportingHost == ParseEndpoint(endpoint).value.0
      && r.value.reportingPort == ParseEndpoint(endpoint).value.1
      && r.value.serviceName == appName
      && r.value.sampler == Sampler("const", 1) && !r.value.logging
  {
    var hp :- ParseEndpoint(endpoint);
    Ok(TracerConfig(appName, Sampler("const", 1), false, hp.0, hp.1))
  }
}

=== FILE: workshop_data.dfy ===
/** The two deterministic steps of the workshop data module: making feature names safe in
    `data_preparation`, and the size and makeup of the drifted batch of
    `new_data_collection`. The random drift multiplier and pandas' seeded sampling order
    are inputs. */
module WorkshopData {
  import opened Strings

  // ---------------------------------------------------------------------------
  //  Column names
  // ---------------------------------------------------------------------------

  /** `X.columns.str.replace("/", "_")` */
  function SanitizeColumns(cols: seq<string>): (r: seq<string>)
    ensures |r| == |cols|
    ensures forall k :: 0 <= k < |cols| ==> |r[k]| == |cols[k]| && '/' !in r[k]
    ensures forall k, i :: 0 <= k < |cols| && 0 <= i < |cols[k]| ==>
      r[k][i] == if cols[k][i] == '/' then '_' else cols[k][i]
  {
    seq(|cols|, k requires 0 <= k < |cols| => ReplaceChar(cols[k], '/', '_'))
  }

  /** Sanitising twice is sanitising once. */
  lemma SanitizeIdempotent(cols: seq<string>)
    ensures SanitizeColumns(SanitizeColumns(cols)) == SanitizeColumns(cols)
  {
    var once := SanitizeColumns(cols);
    forall k | 0 <= k < |cols| ensures SanitizeColumns(once)[k] == once[k] {
      assert forall i :: 0 <= i < |once[k]| ==> once[k][i] != '/';
    }
  }

  // ---------------------------------------------------------------------------
  //  Drifted batch
  // ---------------------------------------------------------------------------

  const AlcoholCutoff: real := 13.0
  const MaxBatch: nat := 100

  ghost predicate Increasing(s: seq<nat>) {
    forall i, j :: 0 <= i < j < |s| ==> s[i] < s[j]
  }

  /** Positions from `from` on of the rows kept by `df[df["alcohol"] > 13]`, in row order. */
  function HighAlcoholFrom(alcohol: seq<real>, from: nat): (idx: seq<nat>)
    requires from <= |alcohol|
    ensures forall k :: 0 <= k < |idx| ==> from <= idx[k] < |alcohol| && alcohol[idx[k]] > AlcoholCutoff
    ensures forall i :: from <= i < |alcohol| && alcohol[i] > AlcoholCutoff ==> i in idx
    ensures Increasing(idx)
    decreases |alcohol| - from
  {
    if from == |alcohol| then []
    else
      var rest := HighAlcoholFrom(alcohol, from + 1);
      if alcohol[from] > AlcoholCutoff then [from] + rest else rest
  }

  function HighAlcohol(alcohol: seq<real>): seq<nat> {
    HighAlcoholFrom(alcohol, 0)
  }

  /** What `sample(..., random_state=0)` draws from: an ordering of all candidate rows,
      each position below `n` once. */
  ghost predicate IsOrdering(perm: seq<nat>, n: nat) {
    && |perm| == n
    && (forall k :: 0 <= k < n ==> perm[k] < n)
    && (forall p :: 0 <= p < n ==> p in perm)
    && (forall i, j :: 0 <= i < j < n ==> perm[i] != perm[j])
  }

  /** `df_filtered.sample(min(100, len(df_filtered)), random_state=0)`: the row positions of
      the batch, taken from the filtered rows in the sampler's order. */
  function DriftBatch(alcohol: seq<real>, perm: seq<nat>): (rows: seq<nat>)
    requires IsOrdering(perm, |HighAlcohol(alcohol)|)
    ensures |rows| == Min(MaxBatch, |HighAlcohol(alcohol)|)
    ensures forall k :: 0 <= k < |rows| ==> rows[k] < |alcohol| && alcohol[rows[k]] > AlcoholCutoff
    ensures forall i, j :: 0 <= i < j < |rows| ==> rows[i] != rows[j]
  {
    var high := HighAlcohol(alcohol);
    var n := Min(MaxBatch, |high|);
    var rows := seq(n, k requires 0 <= k < n => high[perm[k]]);
    forall i, j | 0 <= i < j < n ensures rows[i] != rows[j] {
      assert perm[i] != perm[j];
      if perm[i] < perm[j] {
        assert high[perm[i]] < high[perm[j]];
      } else {
        assert high[perm[j]] < high[perm[i]];
      }
    }
    rows
  }

  /** When at most 100 rows pass the filter, the batch holds every one of them. */
  lemma DriftBatchSmall(alcohol: seq<real>, perm: seq<nat>, i: nat)
    requires IsOrdering(perm, |HighAlcohol(alcohol)|)
    requires |HighAlcohol(alcohol)| <= MaxBatch
    requires i < |alcohol| && alcohol[i] > AlcoholCutoff
    ensures i in DriftBatch(alcohol, perm)
  {
    var high := HighAlcohol(alcohol);
    var n := |high|;
    var rows := DriftBatch(alcohol, perm);
    var p :| 0 <= p < n && high[p] == i;
    assert p in perm;
    var k :| 0 <= k < n && perm[k] == p;
    assert rows[k] == high[perm[k]];
  }
}

=== FILE: workshop_pipeline.dfy ===
/** The training flows of the workshop pipeline: the `train_experiment` sweep and
    `train_best` (the model download of `serve_best` is `MlflowRuns.DownloadBestModel`).
    Tasks are modelled by the training calls they make; Prefect's scheduling and the
    training itself are left out. */
module WorkshopPipeline {
  import opened Wrappers
  import opened MlflowRuns

  const EstimatorGrid: seq<int> := [1, 5, 10]
  const DepthGrid: seq<Option<int>> := [None, Some(5), Some(10)]

  /** `model_training_task(dataset, n_estimators, max_depth, log_model)`; the flows omit
      `log_model` in the sweep, where it defaults to False. */
  function ModelTrainingTask(ds: Dataset, p: Params, logModel: bool): TrainCall {
    TrainCall(ds, p, logModel)
  }

  /** `train_experiment`: one sweep task per pair of `product(n_estimators, max_depth)`. */
  function TrainExperiment(ds: Dataset): (calls: seq<TrainCall>)
    ensures |calls| == |Product(EstimatorGrid, DepthGrid)|
    ensures forall k :: 0 <= k < |calls| ==>
      calls[k] == ModelTrainingTask(ds, Params(Product(EstimatorGrid, DepthGrid)[k].0, Product(EstimatorGrid, DepthGrid)[k].1), false)
  {
    var grid := Product(EstimatorGrid, DepthGrid);
    seq(|grid|, k requires 0 <= k < |grid| => ModelTrainingTask(ds, Params(grid[k].0, grid[k].1), false))
  }

  /** The sweep submits nine tasks, none of which logs a model, in `product` order:
      `n_estimators` is the outer loop and `max_depth` the inner one. */
  lemma TrainExperimentOrder(ds: Dataset)
    ensures |TrainExperiment(ds)| == 9
    ensures forall k :: 0 <= k < 9 ==> TrainExperiment(ds)[k].dataset == ds && !TrainExperiment(ds)[k].logModel
    ensures forall i, j :: 0 <= i < 3 && 0 <= j < 3 ==>
      TrainExperiment(ds)[3 * i + j].params == Params(EstimatorGrid[i], DepthGrid[j])
  {
    forall i, j | 0 <= i < 3 && 0 <= j < 3
      ensures TrainExperiment(ds)[3 * i + j].params == Params(EstimatorGrid[i], DepthGrid[j])
    {
      ProductIndex(EstimatorGrid, DepthGrid, i, j);
    }
  }

  /** Every pair of the grid is trained, and nothing else. */
  lemma TrainExperimentCovers(ds: Dataset, n: int, d: Option<int>)
    ensures TrainCall(ds, Params(n, d), false) in TrainExperiment(ds) <==> n in EstimatorGrid && d in DepthGrid
  {
    var calls := TrainExperiment(ds);
    var grid := Product(EstimatorGrid, DepthGrid);
    ProductMembers(EstimatorGrid, DepthGrid, n, d);
    if (n, d) in grid {
      var k :| 0 <= k < |grid| && grid[k] == (n, d);
      assert calls[k] == TrainCall(ds, Params(n, d), false);
    }
  }

  /** No pair is trained twice. */
  lemma TrainExperimentDistinct(ds: Dataset)
    ensures Distinct(TrainExperiment(ds))
  {
    assert Distinct(EstimatorGrid);
    assert Distinct(DepthGrid);
    ProductDistinct(EstimatorGrid, DepthGrid);
  }

  /** `train_best`: retrain with the best run's hyperparameters, logging the model. */
  function TrainBest(ds: Dataset, runs: seq<RunRow>): (r: Result<TrainCall>)
    ensures r.Ok? <==> BestParams(runs).Ok?
    ensures r.Ok? ==> r.value.logModel && r.value.dataset == ds && r.value.params == BestParams(runs).value
  {
    var p :- BestParams(runs);
    Ok(ModelTrainingTask(ds, p, true))
  }

  /** Whichever sweep task scored best, `train_best` repeats its training call on the same
      prepared dataset, now logging the model. */
  lemma TrainBestOfSweep(ds: Dataset, k: nat, rest: seq<RunRow>)
    requires k < |TrainExperiment(ds)|
    ensures TrainBest(ds, [LoggedRow(TrainExperiment(ds)[k].params)] + rest)
         == Ok(TrainExperiment(ds)[k].(logModel := true))
  {
    BestParamsOfLogged(TrainExperiment(ds)[k].params, rest);
  }
}

=== FILE: wrappers.dfy ===
/** Option and Result types used throughout the model. A `Result` carries the
    Python exception class that the modelled code would raise instead of a value. */
module Wrappers {

  datatype Option<+T> = None | Some(value: T) {

    predicate IsFailure() {
      None?
    }

    function PropagateFailure<U>(): Option<U>
      requires None?
    {
      None
    }

    function Extract(): T
      requires Some?
    {
      value
    }

    /** Python's `x if x is not None else default` */
    function GetOr(default: T): T {
      match this
      case Some(v) => v
      case None => default
    }
  }

  /** The Python exception classes the modelled code can raise. */
  datatype PyError =
    | ValueError
    | TypeError
    | IndexError
    | KeyError
    | StopIteration
    | IsADirectoryError
    | ConnectionError
    | AttributeError
    | ValidationError

  datatype Result<+T> = Ok(value: T) | Err(error: PyError) {

    predicate IsFailure() {
      Err?
    }

    function PropagateFailure<U>(): Result<U>
      requires Err?
    {
      Err(error)
    }

    function Extract(): T
      requires Ok?
    {
      value
    }
  }
}
